=== FILE: README.md ===
# City-Exchange back end — a Dafny model

This project models the decision logic of the City-Exchange back end. That
back end has two parts:

- a Django JSON API that takes currency-exchange orders and international
  transfer requests (Cityex24);
- a Telegram bot that offers a menu, shows exchange rates and collects
  transfer requests in a short conversation.

The administrators are told about every new request through a second
notification bot. A management command cancels exchange orders that stay
pending for more than four hours.

In the model the database is an immutable `Models.Store`:

- users are a map keyed by their unique telegram id;
- templates are a map keyed by their unique message type;
- rates, transfers, administrator chats and orders are sequences.

Transfers and orders are append-only tables whose autoincrement id is the
row's position plus one. `Store.Valid` states this id discipline together
with the schema's uniqueness constraints, the `user` foreign key of
transfers, and the `clean` validators of the rates and administrator chats
entered through the admin site. Every write is proved to keep it.

Rows are listed in the schema's `Meta.ordering`: rates by currency pair,
compared by code point as SQLite compares text, and orders and
administrator chats newest first (module `Ordering`).

Each request handler and each bot handler is a pure function from the store,
the request and the current time to the new store and the response. Time is
whole seconds supplied by the caller.

Sending a Telegram message is an abstract outcome per destination: the
parameter `ok: int -> bool` says whether the send to a chat id succeeds.

Modules:

- `Ordering`: newest-first order and code-point order of text, with the
  sorts that produce them.
- `Common`: `Option` and Python's `str.strip()`, with the `isspace` character
  set.
- `Numerals`: `int()` of query text, `Decimal(str(...))` of JSON values,
  decimal and integer rendering.
- `Json`: decoded request bodies, truthiness, `.get`.
- `Models`: the enumerations and their codes, the records, the `clean`
  validators, `get_message`, `get_country_display_with_flag`, the store.
- `Views`: `create_exchange_order`, `create_cityex24_transfer`,
  `get_user_orders`, `get_exchange_rates`, `get_bot_message`.
- `Bot`: `get_or_create_user`, `start`, `handle_text`,
  `handle_country_selection`, `create_cityex24_transfer`,
  `save_contact_to_transfer`, `handle_contact`.
- `Notifications`: `get_transfer_data`, the fields of both notification
  texts, the active chat ids and the fan-out loop of
  `send_notification_to_admin` and `send_exchange_order_notification`.
- `Expiry`: `cancel_expired_orders`.

Where the code and its accompanying description differ, the model follows
the code. `create_exchange_order` converts both the amount and the rate to
`Decimal` before it looks at either sign. A request whose amount is `0` and
whose rate is not a number is therefore rejected for the number format, not
for the amount.

## Model

| member | source | states |
|---|---|---|
| `Common.Strip` | Backend/bot/views.py:71-78 | `.strip()` result is no longer than its input and starts and ends with a non-space character (or is empty) |
| `Common.StripRemovesOnlySpace` | Backend/bot/views.py:162 | `.strip()` removes only whitespace, from the two ends: the input is space + result + space |
| `Common.BlankIffAllSpace` | Backend/bot/views.py:163 | a value is blank after strip exactly when every character is whitespace |
| `Common.StripIdempotent` | Backend/bot/views.py:92 | stripping twice gives the same text as stripping once |
| `Numerals.NatToStringValue` | Backend/bot/views.py:283 | decimal digits written for a natural number read back as that number |
| `Numerals.IntRoundTrip` | Backend/bot/views.py:283 | `int()` reads the decimal text of every integer back as that integer |
| `Numerals.ParseInt` | Backend/bot/views.py:282-289 | `int()` accepts a text exactly when, stripped, it is an optional sign followed by one or more decimal digits; a negative value comes only from a minus sign, and a minus sign never gives a positive value |
| `Numerals.DecimalExtendsInt` | Backend/bot/views.py:41-42 | a text that `int()` accepts is read by `Decimal` as the same value |
| `Numerals.ParseDecimal` | Backend/bot/views.py:41-42 | `Decimal` accepts a text exactly when, stripped, it is an optional sign, then digits with at most one decimal point and at least one digit; a negative value comes only from a minus sign |
| `Numerals.UnsignedDecimal` | Backend/bot/views.py:41-42 | unsigned decimal text is accepted exactly when it is digits with at most one point and at least one digit, and its value is never negative |
| `Numerals.DecimalIgnoresSurroundingSpace` | Backend/bot/views.py:41-42 | reading a stripped text gives the same value, or the same rejection, as reading the text itself |
| `Numerals.DecimalOfIntText` | Backend/bot/views.py:41-42 | `Decimal(str(i))` of an integer is exactly that integer |
| `Numerals.DecimalTenths` | Backend/bot/views.py:41-42 | a text of whole digits, a point and one digit reads as the whole part plus that digit in tenths |
| `Json.DecimalOf` | Backend/bot/views.py:41-42 | `Decimal(str(v))` converts JSON numbers exactly and rejects null, booleans, lists and objects |
| `Json.DecimalOfIntIsText` | Backend/bot/views.py:41-42 | converting a JSON integer directly gives the same number as reading its decimal text, as `Decimal(str(i))` does |
| `Models.MessageTypeCodes` | Backend/bot/models.py:25-36 | a text names a message type exactly when it is that type's code; every type is one of the ten choices |
| `Models.CountryTexts` | Backend/bot/models.py:89-95 | codes and flag labels each name exactly one of the five countries |
| `Models.CountryDisplayWithFlag` | Backend/bot/models.py:123-125 | a known code displays as its flag label, any other code as itself |
| `Models.DisplayIsKeyboardLabel` | Backend/bot/bot.py:138-144 | the display of a country's code is the keyboard label that selects that country |
| `Models.ChoiceCodesDistinct` | Backend/bot/models.py:97-106 | status codes are distinct; defaults are `new` and `pending`; an order type is accepted iff it is `buy` or `sell` |
| `Models.GetMessage` | Backend/bot/models.py:55-61 | the stored template of the type, or "Сообщение не настроено" when none is stored |
| `Models.CleanExchangeRate` | Backend/bot/models.py:82-84 | a rate is valid exactly when its two currencies differ |
| `Models.CleanAdminChat` | Backend/bot/models.py:146-149 | an administrator chat is valid exactly when its chat id is positive |
| `Models.RateBeforeTransitive` | Backend/bot/models.py:76 | the currency-pair order is transitive |
| `Models.RateBeforeTotal` | Backend/bot/models.py:76 | any two rates are comparable in the currency-pair order |
| `Models.SortRates` | Backend/bot/models.py:76 | the result is a permutation of its input in currency-pair order |
| `Models.ActiveRates` | Backend/bot/views.py:242 | the rates listed are exactly the active ones, each as often as it is stored, sorted by source currency then target currency |
| `Models.RatesListedByPair` | Backend/bot/models.py:76 | active USDT→RUB and EUR→RUB rates stored in that order are listed EUR→RUB first |
| `Models.ListedRatesClean` | Backend/bot/models.py:82-84 | when every rate passes `clean`, no listed rate converts a currency into itself |
| `Models.TransferIndex` | Backend/bot/bot.py:160 | the lookup finds a row with the requested id, or reports that no row has it |
| `Models.TransferIndexOfValid` | Backend/bot/bot.py:159-160 | in a valid store the transfer with id n is found at position n-1, and ids outside 1..count are absent |
| `Expiry.CountExpired` | Backend/bot/management/commands/cancel_expired_orders.py:23 | the count is zero exactly when no order is selected |
| `Expiry.CountIsSelection` | Backend/bot/management/commands/cancel_expired_orders.py:18-23 | the count equals the number of orders the filter selects |
| `Expiry.Sweep` | Backend/bot/management/commands/cancel_expired_orders.py:18-27 | selected orders become cancelled with `updated_at` = now and keep every other field; other orders are unchanged |
| `Expiry.SweepIdempotent` | Backend/bot/management/commands/cancel_expired_orders.py:18-27 | after a sweep no order is selected, and a second sweep at the same moment changes nothing |
| `Expiry.SweepKeepsValid` | Backend/bot/management/commands/cancel_expired_orders.py:27 | the sweep keeps the store's id discipline |
| `Expiry.BoundaryOfWindow` | Backend/bot/management/commands/cancel_expired_orders.py:15-21 | a pending order created 3h59m or exactly 4h ago is not selected; one created 4h and 1s ago is |
| `Expiry.HandleExpiry` | Backend/bot/management/commands/cancel_expired_orders.py:13-38 | the reported count is the number of selected orders and of orders whose status changed; with zero selected nothing is updated |
| `Expiry.SweepChangesSelected` | Backend/bot/management/commands/cancel_expired_orders.py:18-27 | the orders whose status the update changes are exactly the selected ones |
| `Expiry.SweepOfNothing` | Backend/bot/management/commands/cancel_expired_orders.py:23-27 | with nothing selected the update leaves every order as it was |
| `Notifications.UserDisplay` | Backend/bot/bot.py:334-341 | the user line falls back from the owner's full name to `@username` to `ID: n`; with no owner, from the contact name to "Веб-заявка" |
| `Notifications.UserDisplayNeverBlank` | Backend/bot/bot.py:334-341 | the user line is never blank |
| `Notifications.ContactInfo` | Backend/bot/bot.py:343-350 | the contact line is empty exactly when no phone is stored; it ends with the phone, preceded by the contact name and a newline when there is one |
| `Notifications.OwnerOfValid` | Backend/bot/models.py:104 | in a valid store a transfer's owner is found exactly when the transfer names one |
| `Notifications.TransferNoticeOf` | Backend/bot/bot.py:327-358 | the notification data exists exactly when the transfer exists and holds its id, creation time, country display, user line, and the contact line exactly when a phone is stored |
| `Notifications.TransferMessage` | Backend/bot/bot.py:380-386 | the transfer notification starts with its header line |
| `Notifications.CurrenciesOppose` | Backend/bot/bot.py:453-455 | a purchase shows the amount in RUB and the received amount in USDT, a sale the reverse |
| `Notifications.OrderNoticeOf` | Backend/bot/bot.py:440-460 | the order notification shows the order's number, type, amounts, rate, name, wallet, status and creation time; the Telegram id line appears exactly when the id is present and non-zero |
| `Notifications.ActiveAdmins` | Backend/bot/models.py:139 | the active administrator chats, each as often as stored, newest first |
| `Notifications.ActiveChatIds` | Backend/bot/bot.py:321-324 | the destinations are exactly the chat ids of active administrator chats, newest chat first, without repetition when chat ids are unique |
| `Notifications.DestinationsPositive` | Backend/bot/models.py:146-149 | when every chat passes `clean`, every destination is a positive chat id |
| `Notifications.DeliveredAppend` | Backend/bot/bot.py:397-407 | successes over two runs of destinations add up |
| `Notifications.DeliveryOrderIrrelevant` | Backend/bot/bot.py:397-407 | the success count does not depend on the order of the two runs |
| `Notifications.FanOut` | Backend/bot/bot.py:394-416 | one send is attempted per destination, in the order given, a failure does not stop the loop, and successes + errors = number of destinations |
| `Notifications.NotifyTransfer` | Backend/bot/bot.py:360-420 | without a token nothing is sent; with a token and a started bot, every active chat id is tried once |
| `Notifications.NotifyOrder` | Backend/bot/bot.py:422-494 | without a token nothing is sent; with a token and a started bot, every active chat id is tried once |
| `Views.StatusCode` | Backend/bot/views.py:120-134 | a status is 2xx exactly for a success, 4xx exactly for a rejection and 5xx exactly for an internal error; 201 only for a success of a creating endpoint |
| `Views.MissingFieldText` | Backend/bot/views.py:26-30 | the missing-field text holds the field's name at a fixed place, between the fixed prefix and suffix |
| `Views.MissingFieldTextNamesField` | Backend/bot/views.py:26-30 | two missing-field texts are equal exactly when they name the same field |
| `Views.OrderErrorTextDistinct` | Backend/bot/views.py:26-83 | the `error` texts of two order rejections are equal exactly when the rejections are, so the text identifies the reason |
| `Views.FirstMissing` | Backend/bot/views.py:24-30 | the first required field, in list order, that is absent; none exactly when all are present |
| `Views.OrderUserId` | Backend/bot/views.py:86-87 | the stored id is the JSON integer or null given, and an integer outside the 64-bit range of the column is refused |
| `Views.OversizedUserIdFails` | Backend/bot/views.py:86-95 | an order that passes every other check but carries a telegram id outside the 64-bit range is answered with an internal error and writes nothing |
| `Views.ExampleOrderAcceptable` | Backend/bot/views.py:24-95 | a purchase of 9000 at rate 90 with name "Ivan", wallet "T1" and telegram id 42 passes every intake check |
| `Views.ExampleOrderAccepted` | Backend/bot/views.py:57-95 | that purchase is stored as a buy, and 9000 at rate 90 receives 100 |
| `Views.ExampleOrderOverflows` | Backend/bot/views.py:86-95 | the same purchase with telegram id 2^63, one past the column's range, gets an internal error and leaves the store unchanged |
| `Views.OrderTypeOf` | Backend/bot/views.py:33-37 | only the strings "buy" and "sell" name an order type |
| `Views.AmountToReceive` | Backend/bot/views.py:57-62 | a sale's result divided by the rate, and a purchase's result multiplied by it, give back the amount; a positive amount gives a positive result |
| `Views.CheckAmounts` | Backend/bot/views.py:40-68 | both values are converted before either sign is looked at; a bad format, then a non-positive amount, then a non-positive rate is rejected |
| `Views.CheckText` | Backend/bot/views.py:71-83 | a non-string crashes, a blank string is refused, anything else passes stripped and non-empty |
| `Views.CheckedOrder` | Backend/bot/views.py:33-95 | after the field scan the checks run in source order: a bad order type, a refused amount or rate, a blank full name, then a blank wallet are rejected as such; a non-string name or wallet, or an unusable telegram id, is an internal error; accepted iff every check passes; only acceptance writes |
| `Views.CreateExchangeOrder` | Backend/bot/views.py:18-120 | accepted iff every check passes; the first failing check decides the answer: missing field, bad order type, amount or rate, blank full name, blank wallet, and an internal error for a non-string name or wallet or an unusable telegram id; nothing is written unless accepted |
| `Views.AcceptedOrder` | Backend/bot/views.py:85-95 | an accepted order is appended as pending with the next id, the converted amount and rate, the direction's received amount, and the stripped name and wallet |
| `Views.NonPositiveRejected` | Backend/bot/views.py:44-54 | a non-positive amount is rejected as such before the rate is looked at; a non-positive rate is rejected; nothing is written |
| `Views.CreateExchangeOrderKeepsValid` | Backend/bot/views.py:86-95 | creating an order keeps the store's id discipline |
| `Views.ServeExchangeOrder` | Backend/bot/views.py:97-120 | the response and store are those of the intake whatever the notification does; the answer is 201 exactly when every intake check passes; only a created order is announced, and nothing is attempted otherwise |
| `Views.TransferErrorTextDistinct` | Backend/bot/views.py:147-167 | the `error` texts of two transfer rejections are equal exactly when the rejections are |
| `Views.TransferUserId` | Backend/bot/views.py:169-173 | a falsy id means no user; a truthy id is used only when it is an integer in the 64-bit range |
| `Views.OversizedTransferUserIdFails` | Backend/bot/views.py:169-196 | a transfer that passes every other check but carries a telegram id outside the 64-bit range is answered with an internal error and writes nothing |
| `Views.WebUpsertUser` | Backend/bot/views.py:169-186 | a new user takes the contact names; an existing user's names are overwritten only by supplied non-empty names; no other user changes |
| `Views.CreateTransfer` | Backend/bot/views.py:139-233 | missing field, then country outside the five codes, then blank phone are rejected in that order; a non-string phone, a contact name that is neither a string nor null, or a truthy telegram id that is not an in-range integer answers an internal error (500), as the broad handler at views.py:226-233 does; an accepted request writes one `new` transfer with the stripped phone and upserts the user only when an id is given |
| `Views.CreateTransferKeepsValid` | Backend/bot/views.py:169-196 | creating a transfer keeps user keys and transfer ids valid |
| `Views.ServeTransfer` | Backend/bot/views.py:198-219 | the response and store are those of the intake; the answer is 201 exactly when every intake check passes; only a created transfer is announced, and nothing is attempted otherwise |
| `Views.OrdersOf` | Backend/bot/views.py:291 | the result holds exactly the orders of the user, each as often as it is stored |
| `Ordering.SortNewestFirst` | Backend/bot/views.py:291 | the result is a permutation of its input ordered by creation time, newest first |
| `Ordering.CodeLeqTransitive` | Backend/bot/models.py:76 | code-point order of text is transitive |
| `Views.GetUserOrders` | Backend/bot/views.py:270-314 | a missing or empty id and a non-integer id are rejected with 400; otherwise 200 with exactly the user's orders, newest first |
| `Views.GetExchangeRates` | Backend/bot/views.py:238-256 | the answer is 200 and lists exactly the active rates, each as often as stored, in currency-pair order |
| `Views.GetBotMessage` | Backend/bot/views.py:328-359 | a missing type and an unknown type are rejected with 400; a known type answers 200 with its template or "Сообщение не настроено" |
| `Views.JoinAppend` | Backend/bot/views.py:345 | `", ".join` puts the separator exactly between consecutive parts |
| `Views.BadMessageTypeListsCodes` | Backend/bot/views.py:341-346 | the rejection of an unknown type lists the ten codes in the order of the choices, joined by ", " |
| `Views.ErrorTextsDistinct` | Backend/bot/views.py:277-288 | the two rejections of the user-orders endpoint, and the two of the bot-message endpoint, have different texts |
| `Bot.UpsertUser` | Backend/bot/bot.py:15-33 | the sender's username and names are overwritten with the current values, None included; creation time is kept; other users unchanged |
| `Bot.UpsertIdempotent` | Backend/bot/bot.py:172 | upserting the same sender twice at the same moment equals upserting once, and keeps users keyed by telegram id |
| `Bot.ClassifyIsLabel` | Backend/bot/bot.py:206-252 | a text selects a button exactly when it equals that button's label |
| `Bot.Template` | Backend/bot/bot.py:207-209 | a template is used unless it reads as "Сообщение не настроено", in which case the handler's own fallback is |
| `Bot.RateLinesAppend` | Backend/bot/bot.py:221-222 | the board's lines for two runs of rates are the lines of the first followed by those of the second |
| `Bot.Render` | Backend/bot/bot.py:216-222 | the rate board starts with the configured intro and a blank line, or with the header when there is none |
| `Bot.RenderExtends` | Backend/bot/bot.py:221-222 | adding a rate appends exactly its line to the board |
| `Bot.CoursesReply` | Backend/bot/bot.py:212-225 | the board is shown exactly when some rate is active; it lists exactly the active rates in currency-pair order and has an intro iff the template is configured and non-empty; without, the template or its fallback |
| `Bot.HandleStart` | Backend/bot/bot.py:93-109 | the start template is shown unless missing, empty or not configured, in which case the default greeting |
| `Bot.HandleStartKeepsValid` | Backend/bot/bot.py:93-109 | /start keeps the store's key and id discipline |
| `Bot.CreateBotTransfer` | Backend/bot/bot.py:135-154 | a transfer is created exactly for the five keyboard labels, as a `new` transfer of the sender with the label's code and no contact |
| `Bot.HandleCountrySelection` | Backend/bot/bot.py:169-192 | a known label appends a transfer, stores its id as pending and asks for a contact; an unknown label leaves transfers and session untouched |
| `Bot.MenuReply` | Backend/bot/bot.py:204-259 | each menu button answers its own template or fallback, the courses button the rate board, any other text the menu hint; only the transfers button attaches the country keyboard |
| `Bot.HandleText` | Backend/bot/bot.py:200-259 | the sender is upserted; a country label goes to the country selection; any other text gets the menu reply and leaves transfers and the session untouched |
| `Bot.CountryButtonCreatesTransfer` | Backend/bot/bot.py:252-253 | a country button appends exactly one transfer for that country and user and makes it pending, though the sender is upserted twice |
| `Bot.SaveContact` | Backend/bot/bot.py:156-167 | only the phone, both names and the update time of the transfer with that id change; no transfer with that id means no save |
| `Bot.HandleContact` | Backend/bot/bot.py:268-312 | no pending id: error reply and no save; missing transfer: save error and the pending id kept; otherwise save, confirm, clear the pending id, and announce that one transfer |
| `Bot.HandleContactKeepsValid` | Backend/bot/bot.py:268-312 | a contact message keeps the store's key and id discipline |
| `Bot.ContactCompletesOnce` | Backend/bot/bot.py:303-304 | after a contact completes a transfer, a second contact is told to start again and writes nothing |
| `Bot.CountryThenContact` | Backend/bot/bot.py:169-307 | a country choice followed by a contact leaves one new transfer with the country, the sender and the contact's phone and names, clears the session and announces that transfer |
| `Bot.HandleCountrySelectionKeepsValid` | Backend/bot/bot.py:149-153 | a country choice keeps the store's key and id discipline |
| `Bot.HandleTextKeepsValid` | Backend/bot/bot.py:200-259 | every text message keeps the store's key and id discipline |
| `Bot.Handle` | Backend/bot/bot.py:533-535 | /start, contacts and other texts go to their handlers, and only a contact can complete a transfer |
| `Bot.Serve` | Backend/bot/bot.py:292-307 | the step is the handler's alone; a completed transfer is announced to every active chat when a token is set and the bot starts |

## Left out

- The Telegram SDK is replaced by an abstract success per destination: bot start-up, `send_message`, `initialize`/`shutdown`, keyboards beyond which of the three is attached, and `run_polling`.
- The ORM is replaced by the in-memory store: persistence, `sync_to_async`, `asyncio.run`, and database failures.
- Every HTTP request, bot update and management command is modelled as one atomic step, and steps run one after another. Writes of other processes to the same SQLite file between two queries of one step are left out, as is the interleaving of two updates of one user that share `context.user_data`.
- `Expiry.HandleExpiry`: the command counts the selected orders and then updates them in a second query, discarding the update's own row count. The model runs both as one step, so the printed count equals the number of orders updated; a write between the two queries could make them differ.
- The broad `except Exception` branches of the views also catch the `AttributeError` that `.strip()` raises on a non-string name, wallet or phone; the model keeps that path as an internal error (500). Their share for database failures is left out with the ORM.
- The broad `except Exception` branches of `handle_contact` and `handle_text` also catch a failing reply; reply failures are left out with the Telegram SDK, so the model never takes those branches.
- Logging and the classification of send errors in the logs are left out; they are observability only.
- `Decimal` precision, quantisation to 2 and 4 decimal places, and `:.2f` formatting with a decimal comma are left out. Amounts are exact reals and the rendering of a number is a parameter.
- `Expiry.HandleExpiry`: the command reads the clock twice, once for the four-hour cut-off and once for `updated_at`; the model takes one reading for both.
- `strftime` date rendering is a parameter (`stamp`); `timezone.now()` is a caller-supplied integer.
- The HTTP decoding of the body is left out, as are the invalid-JSON 400 response and a body that is not a JSON object. The `Json` type holds finite numbers only: the non-finite floats `NaN`, `Infinity` and `-Infinity` that `json.loads` also accepts are left out. In `create_exchange_order`, `Infinity` passes the sign checks and fails only when the order is saved (a 500), and `NaN` raises `InvalidOperation` at the comparison (a 400).
- `max_length` limits of the character fields are not enforced: the source does not check them before saving.
- A response's JSON shape is reduced to its status, the success value, or the rejection reason with its `error` text; the `str()` of decimals and `isoformat()` of times are left out, as is the fixed text of the 500 answer.
- `Views.CreateExchangeOrder`: a telegram id that is a string, float or boolean, which the database would coerce, is modelled as an internal error before any write.
- `Views.CreateTransfer`: the same holds for a truthy non-integer telegram id and for contact names that are not strings or null.
- `Numerals.ParseDecimal`: exponent forms, underscores, `NaN`, `Infinity` and non-ASCII Unicode decimal digits (Arabic-Indic digits, for instance) are not read. `Decimal` accepts them; here they count as a bad number format.
- `Views.GetUserOrders`: an id that `int()` reads but that lies outside the 64-bit range of the column is answered with the user's orders (none, since stored ids fit the column). Depending on the Django version, the source's lookup instead raises, giving a 500, or finds nothing.
- `Numerals.ParseInt`: underscores between digits and non-ASCII digits, which Python's `int()` accepts, are not read. Conversely, `int()` raises `ValueError` for a text of more than 4300 digits (the default limit of current Python versions), which `get_user_orders` answers with 400 "Неверный формат telegram_user_id"; the model reads a text of any length, so `Views.GetUserOrders` answers such an id with the user's orders.
- `Notifications.TransferMessage`: only the header of the rendered text is stated. The remaining lines are fixed templates over the fields that `TransferNoticeOf` states.
- `Notifications.NotifyOrder`: the text of the order notification is reduced to its fields (`OrderNoticeOf`); rounding and formatting are left out as above.
- A reply whose template is configured as an empty string is modelled as sent. Telegram refuses an empty text, which would lead to the generic error reply.
- An update that is both a command and a text never reaches `handle_text`; the dispatch filters are taken as given.
- `admin.py` (the admin UI, whose display helpers repeat the bot's), `settings.py`, `urls.py`, and the `run_bot`, `send_message` and `test_notification` commands are not part of this model.
- `send_broadcast_message` and `error_handler` are not modelled: they only call the Telegram API or log.

=== FILE: bot.dfy ===
/** The Telegram conversation: the /start command, the menu buttons, the
    country choice that opens an international transfer, and the shared
    contact that completes it. A handler takes the store, the chat's
    session (the `pending_transfer_id` kept in `context.user_data`), the
    update and the current time, and returns the new store and session,
    the reply sent back, and the transfer to announce to the
    administrators, if any. */
module Bot {
  import opened Common
  import opened Models
  import Notifications

  /** The sender of an update (`update.effective_user`). */
  datatype Sender = Sender(id: int, username: Option<string>, firstName: Option<string>, lastName: Option<string>)

  /** A shared contact (`update.message.contact`). */
  datatype Contact = Contact(phone: string, firstName: Option<string>, lastName: Option<string>)

  /** The per-user conversation state (`context.user_data`): the transfer
      waiting for a contact. */
  datatype Session = Session(pending: Option<int>)

  /** The reply keyboards: the main menu, the country choice and the
      one-button contact request. */
  datatype Keyboard = MainMenu | CountryMenu | ShareContact

  /** A reply text, or the rate board of the "Курсы" button, whose numbers
      are rendered separately. */
  datatype Content = Text(text: string) | RateBoard(intro: Option<string>, rates: seq<ExchangeRate>)

  datatype Reply = Reply(content: Content, keyboard: Keyboard)

  /** The result of handling one update. */
  datatype Step = Step(store: Store, session: Session, reply: Option<Reply>, notify: Option<int>)

  // ---------------------------------------------------------------------
  // get_or_create_user
  // ---------------------------------------------------------------------

  /** `get_or_create_user`: a new sender is created with their profile; a
      known one has username and both names overwritten with the current
      profile, absent values included. The creation time is kept. */
  function UpsertUser(users: map<int, TelegramUser>, u: Sender, now: int): (r: map<int, TelegramUser>)
    ensures r.Keys == users.Keys + {u.id}
    ensures forall k :: k in users && k != u.id ==> r[k] == users[k]
    ensures r[u.id].telegramId == u.id && r[u.id].username == u.username
            && r[u.id].firstName == u.firstName && r[u.id].lastName == u.lastName
    ensures r[u.id].updatedAt == now
    ensures r[u.id].createdAt == if u.id in users then users[u.id].createdAt else now
  {
    var created := if u.id in users then users[u.id].createdAt else now;
    users[u.id := TelegramUser(u.id, u.username, u.firstName, u.lastName, created, now)]
  }

  /** Repeating the upsert with the same profile at the same moment changes
      nothing, so the second call made on a country choice is harmless. */
  lemma UpsertIdempotent(users: map<int, TelegramUser>, u: Sender, now: int)
    requires UsersKeyed(users)
    ensures UsersKeyed(UpsertUser(users, u, now))
    ensures UpsertUser(UpsertUser(users, u, now), u, now) == UpsertUser(users, u, now)
  {
    var once := UpsertUser(users, u, now);
    var twice := UpsertUser(once, u, now);
    assert twice.Keys == once.Keys;
    assert forall k :: k in twice ==> twice[k] == once[k];
  }

  // ---------------------------------------------------------------------
  // Menu buttons
  // ---------------------------------------------------------------------

  /** The buttons of the main and the country keyboards. */
  datatype Button =
    | AboutButton | CoursesButton | AmlButton | ContactButton | LocationButton | TransfersButton
    | CountryButton(country: Country)

  function Label(b: Button): string {
    match b
    case AboutButton => "О нас"
    case CoursesButton => "Курсы"
    case AmlButton => "AML Проверка"
    case ContactButton => "Связаться с нами"
    case LocationButton => "Как нас найти"
    case TransfersButton => "Международные переводы Cityex24"
    case CountryButton(c) => CountryLabel(c)
  }

  /** The button a message text is, compared exactly. */
  function Classify(text: string): (r: Option<Button>)
    ensures r.Some? ==> Label(r.value) == text
  {
    if text == "О нас" then Some(AboutButton)
    else if text == "Курсы" then Some(CoursesButton)
    else if text == "AML Проверка" then Some(AmlButton)
    else if text == "Связаться с нами" then Some(ContactButton)
    else if text == "Как нас найти" then Some(LocationButton)
    else if text == "Международные переводы Cityex24" then Some(TransfersButton)
    else match ParseCountryLabel(text)
      case Some(c) => Some(CountryButton(c))
      case None => None
  }

  /** A text selects a button exactly when it is that button's label: no
      two buttons share a label and nothing but a label selects one. */
  lemma ClassifyIsLabel(text: string, b: Button)
    ensures Classify(text) == Some(b) <==> Label(b) == text
  {
    if b.CountryButton? && Label(b) == text {
      match b.country
      case Kyrgyzstan => assert Classify(text) == Some(b);
      case Uzbekistan => assert Classify(text) == Some(b);
      case Uae => assert Classify(text) == Some(b);
      case Turkey => assert Classify(text) == Some(b);
      case SaudiArabia => assert Classify(text) == Some(b);
    }
  }

  // ---------------------------------------------------------------------
  // Templates
  // ---------------------------------------------------------------------

  /** A stored template, or `fallback` when the template reads as the
      not-configured literal. */
  function Template(s: Store, t: MessageType, fallback: string): (r: string)
    ensures t in s.messages && s.messages[t] != NotConfigured ==> r == s.messages[t]
    ensures !(t in s.messages && s.messages[t] != NotConfigured) ==> r == fallback
  {
    var m := GetMessage(s.messages, t);
    if m == NotConfigured then fallback else m
  }

  const StartDefault := "Добро пожаловать в City Exchange! Выберите нужный раздел:"
  const AboutDefault := "Информация о нас скоро будет добавлена."
  const CoursesDefault := "Курсы обмена скоро будут добавлены."
  const AmlDefault := "Информация об AML проверке скоро будет добавлена."
  const ContactDefault := "Контактная информация скоро будет добавлена."
  const LocationDefault := "Информация о местоположении скоро будет добавлена."
  const QuestionDefault :=
    "В какую страну нужно перевести деньги? По международным переводам работаем с 08:00 до 20:00 по МСК"
  const ContactRequestDefault := "Укажите контакты для обратной связи"
  const ConfirmationDefault := "Ваша заявка принята, скоро менеджер свяжется с вами"
  const UseMenuText := "Пожалуйста, используйте кнопки меню для навигации."
  const CreateFailedText := "Произошла ошибка при создании заявки. Попробуйте позже."
  const NoPendingText := "Произошла ошибка. Пожалуйста, начните заново."
  const SaveFailedText := "Произошла ошибка при сохранении контакта. Попробуйте позже."

  // ---------------------------------------------------------------------
  // The rate board
  // ---------------------------------------------------------------------

  const RatesHeader := "📊 Актуальные курсы обмена:\n\n"

  /** One line of the board; `show` renders the decimal rate. */
  function RateLine(x: ExchangeRate, show: real -> string): string {
    "💱 " + x.currencyFrom + " → " + x.currencyTo + ": " + show(x.rate) + "\n"
  }

  function RateLines(rates: seq<ExchangeRate>, show: real -> string): string {
    if rates == [] then "" else RateLine(rates[0], show) + RateLines(rates[1..], show)
  }

  /** The lines of two runs of rates are the lines of the first run
      followed by those of the second. */
  lemma {:induction false} RateLinesAppend(a: seq<ExchangeRate>, b: seq<ExchangeRate>, show: real -> string)
    ensures RateLines(a + b, show) == RateLines(a, show) + RateLines(b, show)
  {
    if a == [] {
      assert a + b == b;
    } else {
      assert (a + b)[0] == a[0] && (a + b)[1..] == a[1..] + b;
      RateLinesAppend(a[1..], b, show);
    }
  }

  /** The opening of the rate board: the intro and a blank line, if any. */
  function BoardHead(intro: Option<string>): string {
    if intro.Some? then intro.value + "\n\n" else ""
  }

  /** The text of a reply: the rate board is the intro and a blank line when
      there is one, the header, then one line per rate in order. */
  function Render(c: Content, show: real -> string): (r: string)
    ensures c.Text? ==> r == c.text
    ensures c.RateBoard? && c.intro.Some? ==>
      |r| >= |c.intro.value| + 2 && r[..|c.intro.value| + 2] == c.intro.value + "\n\n"
    ensures c.RateBoard? && c.intro.None? ==>
      |r| >= |RatesHeader| && r[..|RatesHeader|] == RatesHeader
  {
    match c
    case Text(t) => t
    case RateBoard(intro, rates) =>
      var head := BoardHead(intro);
      assert (head + (RatesHeader + RateLines(rates, show)))[..|head|] == head;
      head + (RatesHeader + RateLines(rates, show))
  }

  /** Adding a rate to the board adds its line at the end. */
  lemma RenderExtends(intro: Option<string>, rates: seq<ExchangeRate>, x: ExchangeRate, show: real -> string)
    ensures Render(RateBoard(intro, rates + [x]), show) == Render(RateBoard(intro, rates), show) + RateLine(x, show)
  {
    RateLinesAppend(rates, [x], show);
    assert RateLines([x], show) == RateLine(x, show) + RateLines([], show);
    AppendAssoc(BoardHead(intro), RatesHeader, RateLines(rates, show), RateLine(x, show));
  }

  lemma AppendAssoc(a: string, b: string, c: string, d: string)
    ensures a + (b + (c + d)) == a + (b + c) + d
  {
  }

  /** The "Курсы" reply: with active rates, the board of exactly those
      rates in currency-pair order, introduced by the template when it is
      configured and not empty; without, the template or its fallback. */
  function CoursesReply(s: Store): (c: Content)
    ensures c.RateBoard? <==> exists i :: 0 <= i < |s.rates| && s.rates[i].active
    ensures c.RateBoard? ==> RatesSorted(c.rates) && forall x :: x in c.rates <==> x in s.rates && x.active
    ensures ActiveRates(s.rates) != [] ==> c.RateBoard? && c.rates == ActiveRates(s.rates)
    ensures c.RateBoard? ==>
      (c.intro.Some? <==> Courses in s.messages && s.messages[Courses] != "" && s.messages[Courses] != NotConfigured)
    ensures c.RateBoard? && c.intro.Some? ==> c.intro.value == s.messages[Courses]
    ensures ActiveRates(s.rates) == [] ==> c == Text(Template(s, Courses, CoursesDefault))
  {
    var rates := ActiveRates(s.rates);
    assert rates != [] <==> exists i :: 0 <= i < |s.rates| && s.rates[i].active by {
      if rates != [] {
        assert rates[0] in s.rates;
      }
    }
    var courses := GetMessage(s.messages, Courses);
    if rates != [] then
      RateBoard(if courses != "" && courses != NotConfigured then Some(courses) else None, rates)
    else Text(Template(s, Courses, CoursesDefault))
  }

  // ---------------------------------------------------------------------
  // Handlers
  // ---------------------------------------------------------------------

  /** `start`: the start template, unless it is missing, empty or the
      not-configured literal, in which case the default greeting. */
  function HandleStart(s: Store, session: Session, u: Sender, now: int): (st: Step)
    ensures st.store == s.(users := UpsertUser(s.users, u, now)) && st.session == session && st.notify.None?
    ensures st.reply.Some? && st.reply.value.keyboard == MainMenu
    ensures st.reply.value.content.Text?
    ensures (Start in s.messages && s.messages[Start] != "" && s.messages[Start] != NotConfigured) ==>
      st.reply.value.content.text == s.messages[Start]
    ensures !(Start in s.messages && s.messages[Start] != "" && s.messages[Start] != NotConfigured) ==>
      st.reply.value.content.text == StartDefault
  {
    var m := if Start in s.messages then s.messages[Start] else StartDefault;
    var text := if m == "" || m == NotConfigured then StartDefault else m;
    Step(s.(users := UpsertUser(s.users, u, now)), session, Some(Reply(Text(text), MainMenu)), None)
  }

  /** `create_cityex24_transfer`: a `new` transfer of the sender for the
      country whose button label was sent, with no contact yet; `None` when
      the text is not a country label. */
  function CreateBotTransfer(s: Store, owner: int, countryText: string, now: int): (r: Option<Transfer>)
    ensures r.Some? <==> ParseCountryLabel(countryText).Some?
    ensures r.Some? ==>
      var t := r.value;
      && t.id == s.NextTransferId() && t.user == Some(owner)
      && CountryLabel(ParseCountryLabel(countryText).value) == countryText
      && t.country == CountryCode(ParseCountryLabel(countryText).value)
      && t.status == DefaultTransferStatus
      && t.phone.None? && t.firstName.None? && t.lastName.None?
      && t.createdAt == now && t.updatedAt == now && t.notes.None?
  {
    match ParseCountryLabel(countryText)
    case None => None
    case Some(c) => Some(Transfer(s.NextTransferId(), Some(owner), CountryCode(c), New, None, None, None, now, now, None))
  }

  /** `handle_country_selection`: the sender is upserted; a country label
      creates a transfer, remembers it as pending and asks for a contact; any
      other text is answered with the creation error and changes nothing
      else. */
  function HandleCountrySelection(s: Store, session: Session, u: Sender, countryText: string, now: int): (st: Step)
    ensures st.notify.None? && st.reply.Some?
    ensures st.store.(transfers := s.transfers) == s.(users := UpsertUser(s.users, u, now))
    ensures ParseCountryLabel(countryText).None? ==>
      && st.store.transfers == s.transfers && st.session == session
      && st.reply.value == Reply(Text(CreateFailedText), MainMenu)
    ensures ParseCountryLabel(countryText).Some? ==>
      && st.store.transfers == s.transfers + [CreateBotTransfer(s, u.id, countryText, now).value]
      && st.session == Session(Some(s.NextTransferId()))
      && st.reply.value == Reply(Text(Template(s, Cityex24ContactRequest, ContactRequestDefault)), ShareContact)
  {
    var s1 := s.(users := UpsertUser(s.users, u, now));
    match CreateBotTransfer(s1, u.id, countryText, now)
    case None => Step(s1, session, Some(Reply(Text(CreateFailedText), MainMenu)), None)
    case Some(t) =>
      Step(s1.(transfers := s1.transfers + [t]), Session(Some(t.id)),
           Some(Reply(Text(Template(s1, Cityex24ContactRequest, ContactRequestDefault)), ShareContact)), None)
  }

  /** The reply of `handle_text` to a text that is not a country label:
      informational buttons answer their template or its fallback on the
      main keyboard, the transfers button asks for a country, and anything
      else is told to use the menu. */
  function MenuReply(s: Store, b: Option<Button>): (r: Reply)
    ensures b.None? ==> r == Reply(Text(UseMenuText), MainMenu)
    ensures b == Some(AboutButton) ==> r == Reply(Text(Template(s, About, AboutDefault)), MainMenu)
    ensures b == Some(CoursesButton) ==> r == Reply(CoursesReply(s), MainMenu)
    ensures b == Some(AmlButton) ==> r == Reply(Text(Template(s, Aml, AmlDefault)), MainMenu)
    ensures b == Some(ContactButton) ==> r == Reply(Text(Template(s, ContactUs, ContactDefault)), MainMenu)
    ensures b == Some(LocationButton) ==> r == Reply(Text(Template(s, Location, LocationDefault)), MainMenu)
    ensures b == Some(TransfersButton) ==>
      r == Reply(Text(Template(s, Cityex24Question, QuestionDefault)), CountryMenu)
    ensures r.keyboard == CountryMenu <==> b == Some(TransfersButton)
  {
    match b
    case None => Reply(Text(UseMenuText), MainMenu)
    case Some(AboutButton) => Reply(Text(Template(s, About, AboutDefault)), MainMenu)
    case Some(CoursesButton) => Reply(CoursesReply(s), MainMenu)
    case Some(AmlButton) => Reply(Text(Template(s, Aml, AmlDefault)), MainMenu)
    case Some(ContactButton) => Reply(Text(Template(s, ContactUs, ContactDefault)), MainMenu)
    case Some(LocationButton) => Reply(Text(Template(s, Location, LocationDefault)), MainMenu)
    case Some(TransfersButton) => Reply(Text(Template(s, Cityex24Question, QuestionDefault)), CountryMenu)
    case Some(CountryButton(_)) => Reply(Text(UseMenuText), MainMenu)
  }

  /** `handle_text`: the sender is upserted, then the text is matched
      against the buttons; a country label goes to the country choice and
      every other text is answered from the menu. Only a country label
      writes a transfer or touches the session. */
  function HandleText(s: Store, session: Session, u: Sender, text: string, now: int): (st: Step)
    ensures st.notify.None? && st.reply.Some?
    ensures st.store.(transfers := s.transfers) == s.(users := UpsertUser(s.users, u, now))
    ensures !(Classify(text).Some? && Classify(text).value.CountryButton?) ==>
      && st.store.transfers == s.transfers && st.session == session
      && st.reply.value == MenuReply(s, Classify(text))
  {
    var s1 := s.(users := UpsertUser(s.users, u, now));
    var b := Classify(text);
    // The upsert touches neither templates nor rates, so the menu reply
    // reads the same from `s` as from `s1`.
    if b.Some? && b.value.CountryButton? then HandleCountrySelection(s1, session, u, text, now)
    else Step(s1, session, Some(MenuReply(s, b)), None)
  }

  /** A country button creates exactly one transfer even though the sender
      is upserted twice along the way. */
  lemma CountryButtonCreatesTransfer(s: Store, session: Session, u: Sender, c: Country, now: int)
    requires s.Valid()
    ensures var st := HandleText(s, session, u, CountryLabel(c), now);
      && st.store.users == UpsertUser(s.users, u, now)
      && st.store.transfers ==
         s.transfers + [Transfer(s.NextTransferId(), Some(u.id), CountryCode(c), New, None, None, None, now, now, None)]
      && st.session == Session(Some(s.NextTransferId()))
      && st.reply.value == Reply(Text(Template(s, Cityex24ContactRequest, ContactRequestDefault)), ShareContact)
  {
    var text := CountryLabel(c);
    ClassifyCountry(c);
    var s1 := s.(users := UpsertUser(s.users, u, now));
    assert HandleText(s, session, u, text, now) == HandleCountrySelection(s1, session, u, text, now);
    UpsertIdempotent(s.users, u, now);
    CountryTexts(text, c);
    var t := CreateBotTransfer(s1, u.id, text, now).value;
    assert t == Transfer(s.NextTransferId(), Some(u.id), CountryCode(c), New, None, None, None, now, now, None);
  }

  lemma ClassifyCountry(c: Country)
    ensures Classify(CountryLabel(c)) == Some(CountryButton(c))
  {
    ClassifyIsLabel(CountryLabel(c), CountryButton(c));
  }

  /** `save_contact_to_transfer`: the phone and both names of the transfer
      with the given id are overwritten and it is saved; `None` when no
      transfer has that id. */
  function SaveContact(transfers: seq<Transfer>, id: int, contact: Contact, now: int): (r: Option<seq<Transfer>>)
    ensures r.Some? <==> TransferIndex(transfers, id).Some?
    ensures r.Some? ==>
      var i := TransferIndex(transfers, id).value;
      && |r.value| == |transfers|
      && (forall j :: 0 <= j < |transfers| && j != i ==> r.value[j] == transfers[j])
      && r.value[i].phone == Some(contact.phone)
      && r.value[i].firstName == contact.firstName && r.value[i].lastName == contact.lastName
      && r.value[i].updatedAt == now
      && r.value[i].(phone := transfers[i].phone, firstName := transfers[i].firstName,
                     lastName := transfers[i].lastName, updatedAt := transfers[i].updatedAt) == transfers[i]
  {
    match TransferIndex(transfers, id)
    case None => None
    case Some(i) =>
      Some(transfers[i := transfers[i].(phone := Some(contact.phone), firstName := contact.firstName,
                                        lastName := contact.lastName, updatedAt := now)])
  }

  /** `handle_contact`: an update without a contact is ignored; without a
      pending transfer the user is asked to start again; when the pending
      transfer is gone the save error is sent and the session is kept;
      otherwise the contact is saved, confirmed, the pending transfer is
      forgotten and the transfer is announced. The sender's profile is not
      touched. */
  function HandleContact(s: Store, session: Session, contact: Option<Contact>, now: int): (st: Step)
    ensures st.store.(transfers := s.transfers) == s
    ensures st.notify.Some? ==>
      contact.Some? && st.notify == session.pending && TransferIndex(s.transfers, st.notify.value).Some?
    ensures contact.None? ==> st == Step(s, session, None, None)
    ensures contact.Some? && (session.pending.None? || session.pending == Some(0)) ==>
      st == Step(s, session, Some(Reply(Text(NoPendingText), MainMenu)), None)
    ensures (contact.Some? && session.pending.Some? && session.pending.value != 0
             && TransferIndex(s.transfers, session.pending.value).None?) ==>
      st == Step(s, session, Some(Reply(Text(SaveFailedText), MainMenu)), None)
    ensures (contact.Some? && session.pending.Some? && session.pending.value != 0
             && TransferIndex(s.transfers, session.pending.value).Some?) ==>
      && st.store.transfers == SaveContact(s.transfers, session.pending.value, contact.value, now).value
      && st.session == Session(None)
      && st.reply == Some(Reply(Text(Template(s, Cityex24Confirmation, ConfirmationDefault)), MainMenu))
      && st.notify == session.pending
  {
    match contact
    case None => Step(s, session, None, None)
    case Some(k) =>
      if session.pending.None? || session.pending == Some(0) then
        Step(s, session, Some(Reply(Text(NoPendingText), MainMenu)), None)
      else
        var id := session.pending.value;
        match SaveContact(s.transfers, id, k, now)
        case None => Step(s, session, Some(Reply(Text(SaveFailedText), MainMenu)), None)
        case Some(transfers) =>
          Step(s.(transfers := transfers), Session(None),
               Some(Reply(Text(Template(s, Cityex24Confirmation, ConfirmationDefault)), MainMenu)), Some(id))
  }

  /** Once a contact has completed a transfer, a second contact finds no
      pending transfer: it is told to start again and writes nothing. */
  lemma ContactCompletesOnce(s: Store, session: Session, k1: Contact, k2: Contact, now: int, later: int)
    requires HandleContact(s, session, Some(k1), now).notify.Some?
    ensures var st := HandleContact(s, session, Some(k1), now);
      HandleContact(st.store, st.session, Some(k2), later) ==
        Step(st.store, st.session, Some(Reply(Text(NoPendingText), MainMenu)), None)
  {
  }

  /** The whole conversation: choosing a country and then sharing a contact
      leaves one new transfer holding the country code, the sender, and the
      contact's phone and names; the session is cleared and that transfer is
      the one announced. */
  lemma CountryThenContact(s: Store, session: Session, u: Sender, c: Country, k: Contact, now: int, later: int)
    requires s.Valid()
    ensures var st1 := HandleText(s, session, u, CountryLabel(c), now);
      var st2 := HandleContact(st1.store, st1.session, Some(k), later);
      && st2.store.users == UpsertUser(s.users, u, now)
      && st2.store.transfers ==
         s.transfers + [Transfer(s.NextTransferId(), Some(u.id), CountryCode(c), New,
                                 Some(k.phone), k.firstName, k.lastName, now, later, None)]
      && st2.session == Session(None)
      && st2.notify == Some(s.NextTransferId())
  {
    CountryButtonCreatesTransfer(s, session, u, c, now);
    var st1 := HandleText(s, session, u, CountryLabel(c), now);
    HandleTextKeepsValid(s, session, u, CountryLabel(c), now);
    TransferIndexOfValid(st1.store, s.NextTransferId());
    var st2 := HandleContact(st1.store, st1.session, Some(k), later);
    assert st2.store.transfers == st1.store.transfers[|s.transfers| := st1.store.transfers[|s.transfers|].(
      phone := Some(k.phone), firstName := k.firstName, lastName := k.lastName, updatedAt := later)];
  }

  // ---------------------------------------------------------------------
  // Store invariants
  // ---------------------------------------------------------------------

  lemma HandleStartKeepsValid(s: Store, session: Session, u: Sender, now: int)
    requires s.Valid()
    ensures HandleStart(s, session, u, now).store.Valid()
  {
  }

  lemma HandleCountrySelectionKeepsValid(s: Store, session: Session, u: Sender, text: string, now: int)
    requires s.Valid()
    ensures HandleCountrySelection(s, session, u, text, now).store.Valid()
  {
    UpsertIdempotent(s.users, u, now);
    if ParseCountryLabel(text).Some? {
      AppendTransferKeepsIds(s.transfers, CreateBotTransfer(s, u.id, text, now).value);
    }
  }

  lemma HandleTextKeepsValid(s: Store, session: Session, u: Sender, text: string, now: int)
    requires s.Valid()
    ensures HandleText(s, session, u, text, now).store.Valid()
  {
    var s1 := s.(users := UpsertUser(s.users, u, now));
    if Classify(text).Some? && Classify(text).value.CountryButton? {
      HandleCountrySelectionKeepsValid(s1, session, u, text, now);
    }
  }

  lemma HandleContactKeepsValid(s: Store, session: Session, contact: Option<Contact>, now: int)
    requires s.Valid()
    ensures HandleContact(s, session, contact, now).store.Valid()
  {
  }

  // ---------------------------------------------------------------------
  // Dispatch
  // ---------------------------------------------------------------------

  /** The updates the bot registers handlers for: the /start command, a
      shared contact, and any other text that is not a command. */
  datatype Update =
    | StartCommand(sender: Sender)
    | ContactMessage(sender: Sender, contact: Option<Contact>)
    | TextMessage(sender: Sender, text: string)

  function Handle(s: Store, session: Session, up: Update, now: int): (st: Step)
    ensures up.StartCommand? ==> st == HandleStart(s, session, up.sender, now)
    ensures up.ContactMessage? ==> st == HandleContact(s, session, up.contact, now)
    ensures up.TextMessage? ==> st == HandleText(s, session, up.sender, up.text, now)
    ensures st.notify.Some? ==> up.ContactMessage?
  {
    match up
    case StartCommand(u) => HandleStart(s, session, u, now)
    case ContactMessage(_, k) => HandleContact(s, session, k, now)
    case TextMessage(u, text) => HandleText(s, session, u, text, now)
  }

  /** One update end to end: the step, followed by the announcement of the
      transfer it completed, which reads the transfer back from the new
      store. Delivery never changes the step. */
  method Serve(s: Store, session: Session, up: Update, now: int, bot: Notifications.Notifier, ok: int -> bool)
    returns (st: Step, notified: Notifications.NotifyOutcome)
    ensures st == Handle(s, session, up, now)
    ensures st.notify.None? ==> notified == Notifications.NotAttempted
    ensures st.notify.Some? && bot.tokenSet && bot.starts ==>
      Notifications.Sends(notified) == Notifications.ActiveChatIds(s.admins)
  {
    st := Handle(s, session, up, now);
    notified := Notifications.NotAttempted;
    if st.notify.Some? {
      var i := TransferIndex(s.transfers, st.notify.value).value;
      assert st.store.transfers[i].id == st.notify.value;
      notified := Notifications.NotifyTransfer(st.store, st.notify.value, bot, ok);
    }
  }
}

=== FILE: common.dfy ===
/** Small shared vocabulary: an optional value and Python's `str.strip()`
    with the notion of a "blank" string built on it. */
module Common {

  /** Python's `None` or a present value. */
  datatype Option<+T> = None | Some(value: T) {
    function GetOr(default: T): T {
      match this
      case Some(v) => v
      case None => default
    }
  }

  /** Python's truthiness of an optional string: neither `None` nor `""`. */
  predicate Supplied(s: Option<string>) {
    s.Some? && s.value != ""
  }

  /** `x or ''` for an optional string. */
  function OrEmpty(s: Option<string>): (r: string)
    ensures Supplied(s) ==> r == s.value
    ensures !Supplied(s) ==> r == ""
  {
    if s.Some? then s.value else ""
  }

  /** The characters for which Python's `str.isspace()` holds; these are the
      characters `str.strip()` removes. */
  predicate IsSpace(c: char) {
    var n := c as int;
    || (9 <= n <= 13) || (28 <= n <= 32) || n == 0x85 || n == 0xA0
    || n == 0x1680 || (0x2000 <= n <= 0x200A) || n == 0x2028 || n == 0x2029
    || n == 0x202F || n == 0x205F || n == 0x3000
  }

  predicate AllSpace(s: string) {
    forall i :: 0 <= i < |s| ==> IsSpace(s[i])
  }

  /** The number of whitespace characters `s` starts with. */
  function LeadingSpace(s: string): (k: nat)
    ensures k <= |s|
    ensures forall i :: 0 <= i < k ==> IsSpace(s[i])
    ensures k < |s| ==> !IsSpace(s[k])
  {
    if |s| > 0 && IsSpace(s[0]) then 1 + LeadingSpace(s[1..]) else 0
  }

  /** The number of whitespace characters `s` ends with. */
  function TrailingSpace(s: string): (k: nat)
    ensures k <= |s|
    ensures forall i :: |s| - k <= i < |s| ==> IsSpace(s[i])
    ensures k < |s| ==> !IsSpace(s[|s| - k - 1])
  {
    if |s| > 0 && IsSpace(s[|s| - 1]) then 1 + TrailingSpace(s[..|s| - 1]) else 0
  }

  function StripLeft(s: string): (r: string)
    ensures |r| <= |s| && r == s[|s| - |r|..]
    ensures AllSpace(s[..|s| - |r|])
    ensures r == [] || !IsSpace(r[0])
  {
    s[LeadingSpace(s)..]
  }

  function StripRight(s: string): (r: string)
    ensures |r| <= |s| && r == s[..|r|]
    ensures AllSpace(s[|r|..])
    ensures r == [] || !IsSpace(r[|r| - 1])
  {
    s[..|s| - TrailingSpace(s)]
  }

  /** Python's `s.strip()`: `s` without its leading and trailing
      whitespace. */
  function Strip(s: string): (r: string)
    ensures |r| <= |s|
    ensures r == [] || (!IsSpace(r[0]) && !IsSpace(r[|r| - 1]))
  {
    StripRight(StripLeft(s))
  }

  /** Stripping removes whitespace and nothing else: the result is an infix
      of `s` with only whitespace on either side. */
  lemma StripRemovesOnlySpace(s: string) returns (k: nat)
    ensures k + |Strip(s)| <= |s| && Strip(s) == s[k..k + |Strip(s)|]
    ensures AllSpace(s[..k]) && AllSpace(s[k + |Strip(s)|..])
  {
    var l := StripLeft(s);
    k := |s| - |l|;
    SliceOfSuffix(s, k, |Strip(s)|);
  }

  lemma SliceOfSuffix(s: string, k: nat, n: nat)
    requires k + n <= |s|
    ensures s[k..][..n] == s[k..k + n]
    ensures s[k..][n..] == s[k + n..]
  {
  }

  /** Python's `not s.strip()`. */
  predicate Blank(s: string) {
    Strip(s) == ""
  }

  /** A string is blank exactly when every character of it is whitespace. */
  lemma BlankIffAllSpace(s: string)
    ensures Blank(s) <==> AllSpace(s)
  {
    var r := Strip(s);
    var k := StripRemovesOnlySpace(s);
    if r == [] {
      forall i | 0 <= i < |s|
        ensures IsSpace(s[i])
      {
        if i < k {
          assert s[i] == s[..k][i];
        } else {
          assert s[i] == s[k..][i - k];
        }
      }
    }
  }

  /** A string that already neither starts nor ends with whitespace is left
      as it is. */
  lemma StripTrimmed(s: string)
    requires s == [] || (!IsSpace(s[0]) && !IsSpace(s[|s| - 1]))
    ensures Strip(s) == s
  {
    var k := StripRemovesOnlySpace(s);
  }

  /** Stripping twice is stripping once. */
  lemma StripIdempotent(s: string)
    ensures Strip(Strip(s)) == Strip(s)
  {
    StripTrimmed(Strip(s));
  }
}

=== FILE: expiry.dfy ===
/** The `cancel_expired_orders` management command: exchange orders still
    pending four hours after creation are cancelled in one conditional
    batch update. Times are whole seconds supplied by the caller. The
    command reads the clock twice, once for the cut-off and once for
    `updated_at`; the model uses one reading `now` for both. */
module Expiry {
  import opened Models

  /** `timedelta(hours=4)` in seconds. */
  const ExpiryWindow: int := 4 * 60 * 60

  /** The filter of the command: status exactly `pending` and created
      strictly before `now - 4h`. */
  predicate Expired(o: ExchangeOrder, now: int) {
    o.status == Pending && o.createdAt < now - ExpiryWindow
  }

  /** `o` after the update `status='cancelled', updated_at=now`. */
  function Cancel(o: ExchangeOrder, now: int): (c: ExchangeOrder)
    ensures c.status == OrderStatus.Cancelled && c.updatedAt == now
    ensures c.(status := o.status, updatedAt := o.updatedAt) == o
  {
    o.(status := OrderStatus.Cancelled, updatedAt := now)
  }

  /** The positions the filter selects. */
  function ExpiredPositions(orders: seq<ExchangeOrder>, now: int): set<nat> {
    set i: nat | i < |orders| && Expired(orders[i], now)
  }

  /** `expired_orders.count()`: the number of rows the filter selects. */
  function CountExpired(orders: seq<ExchangeOrder>, now: int): (n: nat)
    ensures n <= |orders|
    ensures n == 0 <==> forall i :: 0 <= i < |orders| ==> !Expired(orders[i], now)
  {
    if orders == [] then 0
    else CountExpired(orders[..|orders| - 1], now) + (if Expired(orders[|orders| - 1], now) then 1 else 0)
  }

  /** The selection over a table is the selection over all rows but the
      last, plus the last row when it is selected. */
  lemma PositionsOfLast(orders: seq<ExchangeOrder>, now: int)
    requires orders != []
    ensures var last := |orders| - 1;
      ExpiredPositions(orders, now)
      == ExpiredPositions(orders[..last], now) + (if Expired(orders[last], now) then {last} else {})
  {
    var last := |orders| - 1;
    var init := orders[..last];
    assert forall i: nat :: i < last ==> orders[i] == init[i];
  }

  /** The count is the number of selected positions. */
  lemma {:induction false} CountIsSelection(orders: seq<ExchangeOrder>, now: int)
    ensures CountExpired(orders, now) == |ExpiredPositions(orders, now)|
  {
    if orders != [] {
      var last := |orders| - 1;
      var before := ExpiredPositions(orders[..last], now);
      CountIsSelection(orders[..last], now);
      PositionsOfLast(orders, now);
      assert last !in before;
    }
  }

  /** `expired_orders.update(status='cancelled', updated_at=now)`: selected
      rows are cancelled with `updated_at` set to `now`; every other row,
      and every other field, is unchanged. */
  function Sweep(orders: seq<ExchangeOrder>, now: int): (r: seq<ExchangeOrder>)
    ensures |r| == |orders|
    ensures forall i :: 0 <= i < |orders| && Expired(orders[i], now) ==>
      r[i].status == OrderStatus.Cancelled && r[i].updatedAt == now
      && r[i].(status := Pending, updatedAt := orders[i].updatedAt) == orders[i]
    ensures forall i :: 0 <= i < |orders| && !Expired(orders[i], now) ==> r[i] == orders[i]
  {
    seq(|orders|, i requires 0 <= i < |orders| =>
      if Expired(orders[i], now) then Cancel(orders[i], now) else orders[i])
  }

  /** A sweep leaves nothing expired behind, so a second run at the same
      moment selects no rows and changes nothing. */
  lemma SweepIdempotent(orders: seq<ExchangeOrder>, now: int)
    ensures CountExpired(Sweep(orders, now), now) == 0
    ensures Sweep(Sweep(orders, now), now) == Sweep(orders, now)
  {
    var once := Sweep(orders, now);
    assert forall i :: 0 <= i < |once| ==> !Expired(once[i], now);
  }

  /** Rows never change their id, so the store keeps its id discipline. */
  lemma SweepKeepsValid(s: Store, now: int)
    requires s.Valid()
    ensures s.(orders := Sweep(s.orders, now)).Valid()
  {
  }

  /** An order created 3h59m before `now` is not selected; one created 4h
      and one second before is. */
  lemma BoundaryOfWindow(o: ExchangeOrder, now: int)
    requires o.status == Pending
    ensures o.createdAt == now - (3 * 60 * 60 + 59 * 60) ==> !Expired(o, now)
    ensures o.createdAt == now - ExpiryWindow ==> !Expired(o, now)
    ensures o.createdAt == now - ExpiryWindow - 1 ==> Expired(o, now)
  {
  }

  /** The rows whose status a sweep changes are exactly the selected ones. */
  lemma SweepChangesSelected(orders: seq<ExchangeOrder>, now: int)
    ensures (set j: nat | j < |orders| && Sweep(orders, now)[j].status != orders[j].status)
            == ExpiredPositions(orders, now)
  {
  }

  /** With nothing selected a sweep is the identity. */
  lemma SweepOfNothing(orders: seq<ExchangeOrder>, now: int)
    requires CountExpired(orders, now) == 0
    ensures Sweep(orders, now) == orders
  {
    assert forall j :: 0 <= j < |orders| ==> Sweep(orders, now)[j] == orders[j];
  }

  /** The outcome of one run of the command. */
  datatype SweepReport = SweepReport(orders: seq<ExchangeOrder>, cancelled: nat)

  /** `Command.handle`: count the expired rows, and update them only when
      there is at least one. The reported count is the number of rows that
      changed status. */
  method HandleExpiry(orders: seq<ExchangeOrder>, now: int) returns (report: SweepReport)
    ensures report.cancelled == |ExpiredPositions(orders, now)|
    ensures report.cancelled == 0 ==> report.orders == orders
    ensures report.orders == Sweep(orders, now)
    ensures report.cancelled == |set i: nat | i < |orders| && report.orders[i].status != orders[i].status|
  {
    var count := 0;
    var i := 0;
    while i < |orders|
      invariant 0 <= i <= |orders|
      invariant count == CountExpired(orders[..i], now)
    {
      assert orders[..i + 1][..i] == orders[..i];
      if Expired(orders[i], now) {
        count := count + 1;
      }
      i := i + 1;
    }
    assert orders[..|orders|] == orders;
    CountIsSelection(orders, now);
    SweepChangesSelected(orders, now);
    var updated := orders;
    if count > 0 {
      updated := Sweep(orders, now);
    } else {
      SweepOfNothing(orders, now);
    }
    report := SweepReport(updated, count);
  }
}

=== FILE: json.dfy ===
/** The values a decoded JSON request body can hold, with the two Python
    readings the HTTP handlers apply to them: truthiness and
    `Decimal(str(value))`. */
module Json {
  import opened Common
  import Numerals

  /** A value produced by `json.loads`. Floats are carried as the exact
      decimal value of their `repr`; the non-finite `NaN` and `Infinity`
      that `json.loads` also accepts have no value here. */
  datatype Json =
    | JNull
    | JBool(b: bool)
    | JInt(i: int)
    | JFloat(f: real)
    | JString(s: string)
    | JArray(items: seq<Json>)
    | JObject(members: seq<(string, Json)>)

  /** A decoded request body: a JSON object. */
  type Body = map<string, Json>

  /** Python's `bool(value)`. */
  predicate Truthy(v: Json) {
    match v
    case JNull => false
    case JBool(b) => b
    case JInt(i) => i != 0
    case JFloat(f) => f != 0.0
    case JString(s) => s != ""
    case JArray(items) => items != []
    case JObject(members) => members != []
  }

  /** `Decimal(str(value))`, or `None` where it raises `InvalidOperation`:
      numbers convert exactly, strings are read as decimal text, and the
      text of `None`, booleans, lists and dicts is not a number. */
  function DecimalOf(v: Json): (r: Option<real>)
    ensures v.JInt? ==> r == Some(v.i as real)
    ensures v.JFloat? ==> r == Some(v.f)
    ensures r.Some? ==> v.JInt? || v.JFloat? || v.JString?
  {
    match v
    case JInt(i) => Some(i as real)
    case JFloat(f) => Some(f)
    case JString(s) => Numerals.ParseDecimal(s)
    case _ => None
  }

  /** Converting a JSON integer directly is the same as reading its
      decimal text, as `Decimal(str(i))` does. */
  lemma DecimalOfIntIsText(i: int)
    ensures DecimalOf(JInt(i)) == Numerals.ParseDecimal(Numerals.IntToString(i))
  {
    Numerals.DecimalOfIntText(i);
  }

  /** `data.get(key)`: a missing key reads as `None`. */
  function Get(data: Body, key: string): (r: Json)
    ensures key !in data ==> r == JNull
    ensures key in data ==> r == data[key]
  {
    if key in data then data[key] else JNull
  }
}

=== FILE: models.dfy ===
/** The persistent entities of the exchange back end: Telegram users, bot
    message templates, exchange rates, international transfer requests,
    administrator notification chats and exchange orders, with their
    choice enumerations, model validators and the in-memory store that
    stands in for the database. */
module Models {
  import opened Common
  import opened Ordering

  /** The literal a missing template reads as. */
  const NotConfigured: string := "Сообщение не настроено"

  // ---------------------------------------------------------------------
  // Choice enumerations
  // ---------------------------------------------------------------------

  datatype MessageType =
    | Start | About | Support | Courses | ContactUs | Location | Aml
    | Cityex24Question | Cityex24ContactRequest | Cityex24Confirmation

  /** The `MESSAGE_TYPES` choices, in declaration order. */
  const MessageTypes: seq<MessageType> :=
    [Start, About, Support, Courses, ContactUs, Location, Aml,
     Cityex24Question, Cityex24ContactRequest, Cityex24Confirmation]

  function MessageTypeCode(t: MessageType): string {
    match t
    case Start => "start"
    case About => "about"
    case Support => "support"
    case Courses => "courses"
    case ContactUs => "contact"
    case Location => "location"
    case Aml => "aml"
    case Cityex24Question => "cityex24_question"
    case Cityex24ContactRequest => "cityex24_contact_request"
    case Cityex24Confirmation => "cityex24_confirmation"
  }

  /** The choice whose stored code is `s`, if any. */
  function ParseMessageType(s: string): (r: Option<MessageType>)
    ensures r.Some? ==> MessageTypeCode(r.value) == s
  {
    if s == "start" then Some(Start)
    else if s == "about" then Some(About)
    else if s == "support" then Some(Support)
    else if s == "courses" then Some(Courses)
    else if s == "contact" then Some(ContactUs)
    else if s == "location" then Some(Location)
    else if s == "aml" then Some(Aml)
    else if s == "cityex24_question" then Some(Cityex24Question)
    else if s == "cityex24_contact_request" then Some(Cityex24ContactRequest)
    else if s == "cityex24_confirmation" then Some(Cityex24Confirmation)
    else None
  }

  /** The message-type codes are exactly the ten choices: a text is accepted
      iff it is the code of a choice. */
  lemma MessageTypeCodes(s: string, t: MessageType)
    ensures ParseMessageType(s) == Some(t) <==> MessageTypeCode(t) == s
    ensures t in MessageTypes
  {
  }

  datatype Country = Kyrgyzstan | Uzbekistan | Uae | Turkey | SaudiArabia

  /** The `COUNTRY_CHOICES`, in declaration order. */
  const Countries: seq<Country> := [Kyrgyzstan, Uzbekistan, Uae, Turkey, SaudiArabia]

  function CountryCode(c: Country): string {
    match c
    case Kyrgyzstan => "kyrgyzstan"
    case Uzbekistan => "uzbekistan"
    case Uae => "uae"
    case Turkey => "turkey"
    case SaudiArabia => "saudi_arabia"
  }

  /** The display label of a country: its flag and its Russian name. The bot
      uses the same texts as its country keyboard buttons. */
  function CountryLabel(c: Country): string {
    match c
    case Kyrgyzstan => "🇰🇬 Кыргызстан"
    case Uzbekistan => "🇺🇿 Узбекистан"
    case Uae => "🇦🇪 ОАЭ"
    case Turkey => "🇹🇷 Турция"
    case SaudiArabia => "🇸🇦 Саудовская Аравия"
  }

  function ParseCountryCode(s: string): (r: Option<Country>)
    ensures r.Some? ==> CountryCode(r.value) == s
  {
    if s == "kyrgyzstan" then Some(Kyrgyzstan)
    else if s == "uzbekistan" then Some(Uzbekistan)
    else if s == "uae" then Some(Uae)
    else if s == "turkey" then Some(Turkey)
    else if s == "saudi_arabia" then Some(SaudiArabia)
    else None
  }

  function ParseCountryLabel(s: string): (r: Option<Country>)
    ensures r.Some? ==> CountryLabel(r.value) == s
  {
    if s == "🇰🇬 Кыргызстан" then Some(Kyrgyzstan)
    else if s == "🇺🇿 Узбекистан" then Some(Uzbekistan)
    else if s == "🇦🇪 ОАЭ" then Some(Uae)
    else if s == "🇹🇷 Турция" then Some(Turkey)
    else if s == "🇸🇦 Саудовская Аравия" then Some(SaudiArabia)
    else None
  }

  /** Codes and labels each name exactly one country: parsing succeeds iff
      the text is the code (label) of that country. */
  lemma CountryTexts(s: string, c: Country)
    ensures ParseCountryCode(s) == Some(c) <==> CountryCode(c) == s
    ensures ParseCountryLabel(s) == Some(c) <==> CountryLabel(c) == s
    ensures c in Countries
  {
    match c
    case Kyrgyzstan =>
    case Uzbekistan =>
    case Uae =>
    case Turkey =>
    case SaudiArabia =>
  }

  /** `Cityex24Transfer.get_country_display_with_flag`: the label of a known
      country code, and the stored code itself otherwise. */
  function CountryDisplayWithFlag(code: string): (r: string)
    ensures forall c :: CountryCode(c) == code ==> r == CountryLabel(c)
    ensures (forall c :: CountryCode(c) != code) ==> r == code
  {
    match ParseCountryCode(code)
    case Some(c) => CountryLabel(c)
    case None => code
  }

  /** The display of a stored code reads back, as a keyboard label, to the
      country of that code. */
  lemma DisplayIsKeyboardLabel(c: Country)
    ensures ParseCountryLabel(CountryDisplayWithFlag(CountryCode(c))) == Some(c)
  {
  }

  datatype TransferStatus = New | InProgress | Completed | Cancelled

  function TransferStatusCode(s: TransferStatus): string {
    match s
    case New => "new"
    case InProgress => "in_progress"
    case Completed => "completed"
    case Cancelled => "cancelled"
  }

  /** The default status of a transfer row. */
  const DefaultTransferStatus: TransferStatus := New

  datatype OrderType = Buy | Sell

  function OrderTypeCode(t: OrderType): string {
    match t
    case Buy => "buy"
    case Sell => "sell"
  }

  function OrderTypeDisplay(t: OrderType): string {
    match t
    case Buy => "Покупка"
    case Sell => "Продажа"
  }

  function ParseOrderType(s: string): (r: Option<OrderType>)
    ensures r.Some? ==> OrderTypeCode(r.value) == s
  {
    if s == "buy" then Some(Buy) else if s == "sell" then Some(Sell) else None
  }

  datatype OrderStatus = Pending | Processed | Cancelled

  function OrderStatusCode(s: OrderStatus): string {
    match s
    case Pending => "pending"
    case Processed => "processed"
    case Cancelled => "cancelled"
  }

  function OrderStatusDisplay(s: OrderStatus): string {
    match s
    case Pending => "Ожидание"
    case Processed => "Обработано"
    case Cancelled => "Отменено"
  }

  /** The default status of an exchange order row. */
  const DefaultOrderStatus: OrderStatus := Pending

  /** Stored codes of the choice fields are one-to-one with the choices and
      the defaults are `new` and `pending`. */
  lemma ChoiceCodesDistinct(a: TransferStatus, b: TransferStatus, x: OrderStatus, y: OrderStatus,
                            s: string, t: OrderType)
    ensures TransferStatusCode(a) == TransferStatusCode(b) ==> a == b
    ensures OrderStatusCode(x) == OrderStatusCode(y) ==> x == y
    ensures ParseOrderType(s) == Some(t) <==> OrderTypeCode(t) == s
    ensures TransferStatusCode(DefaultTransferStatus) == "new"
    ensures OrderStatusCode(DefaultOrderStatus) == "pending"
  {
  }

  // ---------------------------------------------------------------------
  // Records
  // ---------------------------------------------------------------------

  /** `BigIntegerField` holds a signed 64-bit integer; SQLite refuses to
      store or compare a wider Python int. */
  const MinBigInt: int := -0x8000_0000_0000_0000
  const MaxBigInt: int := 0x7FFF_FFFF_FFFF_FFFF

  predicate FitsBigInt(i: int) {
    MinBigInt <= i <= MaxBigInt
  }

  datatype TelegramUser = TelegramUser(
    telegramId: int,
    username: Option<string>,
    firstName: Option<string>,
    lastName: Option<string>,
    createdAt: int,
    updatedAt: int)

  datatype ExchangeRate = ExchangeRate(
    currencyFrom: string,
    currencyTo: string,
    rate: real,
    active: bool)

  datatype Transfer = Transfer(
    id: nat,
    user: Option<int>,        // telegram id of the owning user
    country: string,          // stored country code
    status: TransferStatus,
    phone: Option<string>,
    firstName: Option<string>,
    lastName: Option<string>,
    createdAt: int,
    updatedAt: int,
    notes: Option<string>)

  datatype AdminChat = AdminChat(
    chatId: int,
    name: Option<string>,
    active: bool,
    createdAt: int)

  datatype ExchangeOrder = ExchangeOrder(
    id: nat,
    telegramUserId: Option<int>,
    orderType: OrderType,
    amount: real,
    exchangeRate: real,
    amountToReceive: real,
    fullName: string,
    walletAddress: string,
    status: OrderStatus,
    createdAt: int,
    updatedAt: int,
    notes: Option<string>)

  /** The creation times the newest-first listings sort by. */
  function OrderCreated(o: ExchangeOrder): int {
    o.createdAt
  }

  function AdminCreated(a: AdminChat): int {
    a.createdAt
  }

  // ---------------------------------------------------------------------
  // Model methods and validators
  // ---------------------------------------------------------------------

  /** `BotMessage.get_message`: the stored text for the type, or the
      not-configured literal. */
  function GetMessage(messages: map<MessageType, string>, t: MessageType): (r: string)
    ensures t in messages ==> r == messages[t]
    ensures t !in messages ==> r == NotConfigured
  {
    if t in messages then messages[t] else NotConfigured
  }

  datatype CleanResult = Clean | Invalid(message: string)

  /** `ExchangeRate.clean`: a rate may not convert a currency into itself. */
  function CleanExchangeRate(r: ExchangeRate): (v: CleanResult)
    ensures v.Clean? <==> r.currencyFrom != r.currencyTo
  {
    if r.currencyFrom == r.currencyTo then Invalid("Валюта 'от' и 'к' не могут быть одинаковыми")
    else Clean
  }

  /** `AdminChat.clean`: a notification chat id must be positive. */
  function CleanAdminChat(a: AdminChat): (v: CleanResult)
    ensures v.Clean? <==> a.chatId > 0
  {
    if a.chatId <= 0 then Invalid("Chat ID должен быть положительным числом") else Clean
  }

  /** `ordering = ['currency_from', 'currency_to']`: by source currency,
      then by target currency, each compared by code point. */
  predicate RateBefore(x: ExchangeRate, y: ExchangeRate) {
    if x.currencyFrom == y.currencyFrom then CodeLeq(x.currencyTo, y.currencyTo)
    else CodeLeq(x.currencyFrom, y.currencyFrom)
  }

  lemma RateBeforeTotal(x: ExchangeRate, y: ExchangeRate)
    ensures RateBefore(x, y) || RateBefore(y, x)
  {
    CodeLeqTotal(x.currencyFrom, y.currencyFrom);
    CodeLeqTotal(x.currencyTo, y.currencyTo);
  }

  lemma RateBeforeTransitive(x: ExchangeRate, y: ExchangeRate, z: ExchangeRate)
    requires RateBefore(x, y) && RateBefore(y, z)
    ensures RateBefore(x, z)
  {
    if x.currencyFrom == y.currencyFrom && y.currencyFrom == z.currencyFrom {
      CodeLeqTransitive(x.currencyTo, y.currencyTo, z.currencyTo);
    } else if x.currencyFrom != y.currencyFrom && y.currencyFrom != z.currencyFrom {
      CodeLeqTransitive(x.currencyFrom, y.currencyFrom, z.currencyFrom);
      if x.currencyFrom == z.currencyFrom {
        CodeLeqAntisymmetric(x.currencyFrom, y.currencyFrom);
      }
    }
  }

  /** `s` lists rates in the schema's rate order. */
  ghost predicate RatesSorted(s: seq<ExchangeRate>) {
    forall i, j :: 0 <= i < j < |s| ==> RateBefore(s[i], s[j])
  }

  lemma ConsRatesSorted(x: ExchangeRate, t: seq<ExchangeRate>)
    requires RatesSorted(t)
    requires t == [] || RateBefore(x, t[0])
    ensures RatesSorted([x] + t)
  {
    var r := [x] + t;
    forall i, j | 0 <= i < j < |r|
      ensures RateBefore(r[i], r[j])
    {
      if i == 0 {
        assert r[j] == t[j - 1];
        if j > 1 {
          RateBeforeTransitive(x, t[0], t[j - 1]);
        }
      } else {
        assert r[i] == t[i - 1] && r[j] == t[j - 1];
      }
    }
  }

  lemma TailRatesSorted(s: seq<ExchangeRate>)
    requires RatesSorted(s) && s != []
    ensures RatesSorted(s[1..])
  {
    var t := s[1..];
    forall i, j | 0 <= i < j < |t|
      ensures RateBefore(t[i], t[j])
    {
      assert t[i] == s[i + 1] && t[j] == s[j + 1];
    }
  }

  function InsertRate(x: ExchangeRate, s: seq<ExchangeRate>): (r: seq<ExchangeRate>)
    requires RatesSorted(s)
    ensures RatesSorted(r)
    ensures multiset(r) == multiset(s) + multiset{x}
    ensures |r| == |s| + 1
    ensures r[0] == x || (s != [] && r[0] == s[0])
  {
    if s == [] || RateBefore(x, s[0]) then
      ConsRatesSorted(x, s);
      [x] + s
    else
      TailRatesSorted(s);
      var rest := InsertRate(x, s[1..]);
      RateBeforeTotal(x, s[0]);
      assert |s| > 1 ==> RateBefore(s[0], s[1]);
      ConsRatesSorted(s[0], rest);
      ReattachMultiset(x, s, rest);
      [s[0]] + rest
  }

  /** The same rates in the schema's rate order. */
  function SortRates(s: seq<ExchangeRate>): (r: seq<ExchangeRate>)
    ensures RatesSorted(r)
    ensures multiset(r) == multiset(s)
    ensures |r| == |s|
  {
    if s == [] then []
    else
      assert s == [s[0]] + s[1..];
      InsertRate(s[0], SortRates(s[1..]))
  }

  /** `filter(is_active=True)`: the active rows, each as often as it
      occurs in the table. */
  function ActiveRows(rates: seq<ExchangeRate>): (r: seq<ExchangeRate>)
    ensures |r| <= |rates|
    ensures forall x :: multiset(r)[x] == if x.active then multiset(rates)[x] else 0
  {
    if rates == [] then []
    else
      var rest := ActiveRows(rates[1..]);
      assert rates == [rates[0]] + rates[1..];
      if rates[0].active then [rates[0]] + rest else rest
  }

  /** `ExchangeRate.objects.filter(is_active=True)`: the active rates, in
      the model's ordering by currency pair. */
  function ActiveRates(rates: seq<ExchangeRate>): (r: seq<ExchangeRate>)
    ensures |r| <= |rates|
    ensures RatesSorted(r)
    ensures forall x :: multiset(r)[x] == if x.active then multiset(rates)[x] else 0
    ensures forall x :: x in r <==> x in rates && x.active
  {
    var r := SortRates(ActiveRows(rates));
    assert forall x :: x in r <==> multiset(r)[x] > 0;
    r
  }

  /** In a store whose rates pass `ExchangeRate.clean`, no listed rate
      converts a currency into itself. */
  lemma ListedRatesClean(rates: seq<ExchangeRate>)
    requires RatesClean(rates)
    ensures forall x :: x in ActiveRates(rates) ==> x.currencyFrom != x.currencyTo
  {
  }

  /** Two active rates stored USDT→RUB first and EUR→RUB second are listed
      EUR→RUB first. */
  lemma RatesListedByPair(usdt: ExchangeRate, eur: ExchangeRate)
    requires usdt.currencyFrom == "USDT" && usdt.currencyTo == "RUB" && usdt.active
    requires eur.currencyFrom == "EUR" && eur.currencyTo == "RUB" && eur.active
    ensures ActiveRates([usdt, eur]) == [eur, usdt]
  {
    BothActive(usdt, eur);
    SortSwapsPair(usdt, eur);
  }

  lemma BothActive(x: ExchangeRate, y: ExchangeRate)
    requires x.active && y.active
    ensures ActiveRows([x, y]) == [x, y]
  {
    assert [x, y][1..] == [y] && [y][1..] == [];
  }

  lemma SortSwapsPair(x: ExchangeRate, y: ExchangeRate)
    requires !RateBefore(x, y)
    ensures SortRates([x, y]) == [y, x]
  {
    assert [x, y][1..] == [y] && [y][1..] == [];
    assert SortRates([y]) == [y];
    assert InsertRate(x, [y]) == [y] + InsertRate(x, []);
  }

  // ---------------------------------------------------------------------
  // The store
  // ---------------------------------------------------------------------

  /** The database. Users are keyed by their unique telegram id, templates
      by their unique message type. Transfers and orders are append-only
      tables whose autoincrement id is the row's position plus one. */
  datatype Store = Store(
    users: map<int, TelegramUser>,
    messages: map<MessageType, string>,
    rates: seq<ExchangeRate>,
    transfers: seq<Transfer>,
    admins: seq<AdminChat>,
    orders: seq<ExchangeOrder>)
  {
    /** The uniqueness constraints of the schema, the id discipline, the
        owner foreign key of transfers, and the `clean` validators of the
        rows entered through the admin (rates and administrator chats). */
    ghost predicate Valid() {
      && UsersKeyed(users)
      && UniqueRatePairs(rates)
      && UniqueChatIds(admins)
      && RatesClean(rates)
      && AdminsClean(admins)
      && OwnersExist(transfers, users)
      && (forall i :: 0 <= i < |transfers| ==> transfers[i].id == i + 1)
      && (forall i :: 0 <= i < |orders| ==> orders[i].id == i + 1)
    }

    /** The id the next created transfer receives. */
    function NextTransferId(): nat {
      |transfers| + 1
    }

    /** The id the next created order receives. */
    function NextOrderId(): nat {
      |orders| + 1
    }
  }

  /** `telegram_id` is unique: the key of each user is its telegram id. */
  ghost predicate UsersKeyed(users: map<int, TelegramUser>) {
    forall k :: k in users ==> users[k].telegramId == k
  }

  /** `unique_together = [['currency_from', 'currency_to']]`. */
  ghost predicate UniqueRatePairs(rates: seq<ExchangeRate>) {
    forall i, j :: 0 <= i < j < |rates| ==>
      (rates[i].currencyFrom, rates[i].currencyTo) != (rates[j].currencyFrom, rates[j].currencyTo)
  }

  /** Every rate passes `ExchangeRate.clean`. */
  ghost predicate RatesClean(rates: seq<ExchangeRate>) {
    forall i :: 0 <= i < |rates| ==> CleanExchangeRate(rates[i]).Clean?
  }

  /** Every administrator chat passes `AdminChat.clean`. */
  ghost predicate AdminsClean(admins: seq<AdminChat>) {
    forall i :: 0 <= i < |admins| ==> CleanAdminChat(admins[i]).Clean?
  }

  /** The `user` foreign key of a transfer names an existing user. */
  ghost predicate OwnersExist(transfers: seq<Transfer>, users: map<int, TelegramUser>) {
    forall i :: 0 <= i < |transfers| && transfers[i].user.Some? ==> transfers[i].user.value in users
  }

  /** Users are never deleted, so a table whose owners exist keeps them
      when users are added or updated, and an appended transfer whose owner
      exists keeps the foreign key. */
  lemma OwnersStillExist(transfers: seq<Transfer>, users: map<int, TelegramUser>,
                         more: map<int, TelegramUser>, t: Transfer)
    requires OwnersExist(transfers, users)
    requires users.Keys <= more.Keys
    requires t.user.Some? ==> t.user.value in more
    ensures OwnersExist(transfers, more)
    ensures OwnersExist(transfers + [t], more)
  {
    var all := transfers + [t];
    forall i | 0 <= i < |all| && all[i].user.Some?
      ensures all[i].user.value in more
    {
      if i < |transfers| {
        assert all[i] == transfers[i];
      }
    }
  }

  /** `chat_id` is unique. */
  ghost predicate UniqueChatIds(admins: seq<AdminChat>) {
    forall i, j :: 0 <= i < j < |admins| ==> admins[i].chatId != admins[j].chatId
  }

  /** The position of the transfer with the given id (`objects.get(pk=id)`),
      or `None` when there is none. */
  function TransferIndex(transfers: seq<Transfer>, id: int): (r: Option<nat>)
    ensures r.Some? ==> r.value < |transfers| && transfers[r.value].id == id
    ensures r.None? ==> forall i :: 0 <= i < |transfers| ==> transfers[i].id != id
  {
    if transfers == [] then None
    else if transfers[0].id == id then Some(0)
    else match TransferIndex(transfers[1..], id)
      case None => None
      case Some(k) => Some(k + 1)
  }

  /** In a valid store the transfer with id `n` sits at position `n - 1`. */
  lemma TransferIndexOfValid(s: Store, id: int)
    requires s.Valid()
    ensures 1 <= id <= |s.transfers| ==> TransferIndex(s.transfers, id) == Some(id - 1)
    ensures !(1 <= id <= |s.transfers|) ==> TransferIndex(s.transfers, id).None?
  {
    if 1 <= id <= |s.transfers| {
      var r := TransferIndex(s.transfers, id);
      assert s.transfers[id - 1].id == id;
    }
  }

  /** Appending a row whose id is the next one keeps ids equal to
      positions plus one. */
  lemma AppendTransferKeepsIds(ts: seq<Transfer>, t: Transfer)
    requires forall i :: 0 <= i < |ts| ==> ts[i].id == i + 1
    requires t.id == |ts| + 1
    ensures forall i :: 0 <= i < |ts + [t]| ==> (ts + [t])[i].id == i + 1
  {
    forall i | 0 <= i < |ts + [t]|
      ensures (ts + [t])[i].id == i + 1
    {
      if i < |ts| {
        assert (ts + [t])[i] == ts[i];
      }
    }
  }

  lemma AppendOrderKeepsIds(os: seq<ExchangeOrder>, o: ExchangeOrder)
    requires forall i :: 0 <= i < |os| ==> os[i].id == i + 1
    requires o.id == |os| + 1
    ensures forall i :: 0 <= i < |os + [o]| ==> (os + [o])[i].id == i + 1
  {
    forall i | 0 <= i < |os + [o]|
      ensures (os + [o])[i].id == i + 1
    {
      if i < |os| {
        assert (os + [o])[i] == os[i];
      }
    }
  }
}

=== FILE: notifications.dfy ===
/** Administrator notifications: the summary of a new transfer request or
    exchange order, and its delivery to every active administrator chat
    with each send isolated from the failures of the others. A send is an
    abstract outcome per destination chat id. */
module Notifications {
  import opened Common
  import opened Models
  import opened Ordering
  import Numerals

  // ---------------------------------------------------------------------
  // Transfer summary (get_transfer_data)
  // ---------------------------------------------------------------------

  /** `f"{first or ''} {last or ''}".strip()`. */
  function JoinedName(first: Option<string>, last: Option<string>): string {
    Strip(OrEmpty(first) + " " + OrEmpty(last))
  }

  const WebRequest: string := "Веб-заявка"

  /** The "user" line of a transfer summary: the owner's full name, else
      `@username`, else `ID: <telegram id>`; with no owner, the contact name,
      else the web-request marker. */
  function UserDisplay(owner: Option<TelegramUser>, t: Transfer): (r: string)
    ensures owner.Some? && JoinedName(owner.value.firstName, owner.value.lastName) != "" ==>
      r == JoinedName(owner.value.firstName, owner.value.lastName)
    ensures (owner.Some? && JoinedName(owner.value.firstName, owner.value.lastName) == ""
             && Supplied(owner.value.username)) ==> r == "@" + owner.value.username.value
    ensures (owner.Some? && JoinedName(owner.value.firstName, owner.value.lastName) == ""
             && !Supplied(owner.value.username)) ==> r == "ID: " + Numerals.IntToString(owner.value.telegramId)
    ensures owner.None? && JoinedName(t.firstName, t.lastName) != "" ==> r == JoinedName(t.firstName, t.lastName)
    ensures owner.None? && JoinedName(t.firstName, t.lastName) == "" ==> r == WebRequest
  {
    match owner
    case Some(u) =>
      var name := JoinedName(u.firstName, u.lastName);
      if name != "" then name
      else if Supplied(u.username) then "@" + u.username.value
      else "ID: " + Numerals.IntToString(u.telegramId)
    case None =>
      var contact := JoinedName(t.firstName, t.lastName);
      if contact != "" then contact else WebRequest
  }

  /** Whatever falls back to what, the user line is never blank. */
  lemma UserDisplayNeverBlank(owner: Option<TelegramUser>, t: Transfer)
    ensures !Blank(UserDisplay(owner, t))
  {
    var r := UserDisplay(owner, t);
    var (first, last) := if owner.Some? then (owner.value.firstName, owner.value.lastName)
                         else (t.firstName, t.lastName);
    if JoinedName(first, last) != "" {
      StripIdempotent(OrEmpty(first) + " " + OrEmpty(last));
    } else {
      LeadingMarkNotBlank(r);
    }
  }

  /** A text that starts with a visible character is not blank. */
  lemma LeadingMarkNotBlank(r: string)
    requires r != [] && !IsSpace(r[0])
    ensures !Blank(r)
  {
    BlankIffAllSpace(r);
  }

  /** The contact part of a transfer summary: empty without a phone;
      otherwise the phone, preceded by the contact name when there is one. */
  function ContactInfo(t: Transfer): (r: string)
    ensures r == "" <==> !Supplied(t.phone)
    ensures Supplied(t.phone) ==> |r| >= |t.phone.value| && r[|r| - |t.phone.value|..] == t.phone.value
    ensures Supplied(t.phone) && JoinedName(t.firstName, t.lastName) != "" ==>
      |r| > |JoinedName(t.firstName, t.lastName)|
      && r[..|JoinedName(t.firstName, t.lastName)| + 1] == JoinedName(t.firstName, t.lastName) + "\n"
  {
    if Supplied(t.phone) then
      var name := JoinedName(t.firstName, t.lastName);
      var line := "📱 " + t.phone.value;
      SuffixOf("📱 ", t.phone.value);
      if name != "" then
        SuffixOf(name + "\n", line);
        PrefixOf(name + "\n", line);
        name + "\n" + line
      else line
    else ""
  }

  lemma SuffixOf(a: string, b: string)
    ensures (a + b)[|a + b| - |b|..] == b
  {
  }

  lemma PrefixOf(a: string, b: string)
    ensures (a + b)[..|a|] == a
  {
  }

  /** The data a transfer notification is rendered from. */
  datatype TransferNotice = TransferNotice(
    userInfo: string,
    countryDisplay: string,
    contact: Option<string>,
    createdAt: int,
    transferId: nat)

  /** The owning user of a transfer, read through the foreign key. */
  function OwnerOf(s: Store, t: Transfer): (r: Option<TelegramUser>)
    ensures r.Some? ==> t.user.Some? && t.user.value in s.users && r.value == s.users[t.user.value]
    ensures r.None? ==> t.user.None? || t.user.value !in s.users
  {
    if t.user.Some? && t.user.value in s.users then Some(s.users[t.user.value]) else None
  }

  /** In a valid store the foreign key always resolves: a transfer has an
      owner exactly when it names one. */
  lemma OwnerOfValid(s: Store, i: nat)
    requires s.Valid() && i < |s.transfers|
    ensures OwnerOf(s, s.transfers[i]).Some? <==> s.transfers[i].user.Some?
  {
  }

  /** `get_transfer_data`: the transfer is read back from the store by id;
      `None` where the lookup raises. The contact line is present exactly
      when the transfer has a phone. */
  function TransferNoticeOf(s: Store, transferId: int): (r: Option<TransferNotice>)
    ensures r.Some? <==> TransferIndex(s.transfers, transferId).Some?
    ensures r.Some? ==>
      var t := s.transfers[TransferIndex(s.transfers, transferId).value];
      && r.value.transferId == t.id
      && r.value.countryDisplay == CountryDisplayWithFlag(t.country)
      && r.value.createdAt == t.createdAt
      && r.value.userInfo == UserDisplay(OwnerOf(s, t), t)
      && (r.value.contact.Some? <==> Supplied(t.phone))
      && (r.value.contact.Some? ==> r.value.contact.value == ContactInfo(t))
  {
    match TransferIndex(s.transfers, transferId)
    case None => None
    case Some(k) =>
      var t := s.transfers[k];
      var info := ContactInfo(t);
      Some(TransferNotice(
        UserDisplay(OwnerOf(s, t), t),
        CountryDisplayWithFlag(t.country),
        if info != "" then Some(info) else None,
        t.createdAt,
        t.id))
  }

  const TransferHeader: string := "🔔 Новая заявка Cityex24\n\n"

  /** The text sent for a transfer; `stamp` renders a time the way
      `strftime('%d.%m.%Y %H:%M')` does. */
  function TransferMessage(n: TransferNotice, stamp: int -> string): (r: string)
    ensures |r| > |TransferHeader| && r[..|TransferHeader|] == TransferHeader
  {
    var contactLine := if n.contact.Some? then "📞 Контакт: " + n.contact.value + "\n" else "";
    var rest := "👤 Пользователь: " + n.userInfo + "\n"
      + "🌍 Страна: " + n.countryDisplay + "\n"
      + contactLine
      + "📅 Дата: " + stamp(n.createdAt) + "\n"
      + "🆔 ID заявки: " + Numerals.IntToString(n.transferId);
    PrefixOf(TransferHeader, rest);
    TransferHeader + rest
  }

  // ---------------------------------------------------------------------
  // Order summary (send_exchange_order_notification)
  // ---------------------------------------------------------------------

  /** The currency the paid amount is given in: roubles for a purchase of
      USDT, USDT for a sale. */
  function AmountCurrency(t: OrderType): string {
    match t
    case Buy => "RUB"
    case Sell => "USDT"
  }

  /** The currency the received amount is given in. */
  function ReceiveCurrency(t: OrderType): string {
    match t
    case Buy => "USDT"
    case Sell => "RUB"
  }

  /** The two suffixes of an order are always the two different currencies
      of the pair, and swap with the direction. */
  lemma CurrenciesOppose(t: OrderType)
    ensures AmountCurrency(t) != ReceiveCurrency(t)
    ensures {AmountCurrency(t), ReceiveCurrency(t)} == {"RUB", "USDT"}
    ensures AmountCurrency(Buy) == ReceiveCurrency(Sell) && AmountCurrency(Sell) == ReceiveCurrency(Buy)
  {
  }

  /** The fields of an order notification, in message order. Amounts are
      carried exactly; their two- and four-place formatting is a rendering
      concern. */
  datatype OrderNotice = OrderNotice(
    orderId: nat,
    typeDisplay: string,
    amount: real,
    amountCurrency: string,
    exchangeRate: real,
    amountToReceive: real,
    receiveCurrency: string,
    fullName: string,
    walletAddress: string,
    telegramId: Option<int>,
    createdAt: int,
    statusDisplay: string)

  /** The notification fields of an order. The Telegram line appears only
      for a truthy (present and non-zero) telegram user id. */
  function OrderNoticeOf(o: ExchangeOrder): (r: OrderNotice)
    ensures r.amountCurrency == AmountCurrency(o.orderType) && r.receiveCurrency == ReceiveCurrency(o.orderType)
    ensures r.typeDisplay == OrderTypeDisplay(o.orderType) && r.statusDisplay == OrderStatusDisplay(o.status)
    ensures r.telegramId.Some? <==> o.telegramUserId.Some? && o.telegramUserId.value != 0
    ensures r.telegramId.Some? ==> r.telegramId == o.telegramUserId
    ensures r.amount == o.amount && r.exchangeRate == o.exchangeRate && r.amountToReceive == o.amountToReceive
    ensures r.orderId == o.id && r.fullName == o.fullName && r.walletAddress == o.walletAddress
    ensures r.createdAt == o.createdAt
  {
    OrderNotice(
      o.id,
      if o.orderType == Buy then "Покупка" else "Продажа",
      o.amount,
      if o.orderType == Buy then "RUB" else "USDT",
      o.exchangeRate,
      o.amountToReceive,
      if o.orderType == Buy then "USDT" else "RUB",
      o.fullName,
      o.walletAddress,
      if o.telegramUserId.Some? && o.telegramUserId.value != 0 then o.telegramUserId else None,
      o.createdAt,
      OrderStatusDisplay(o.status))
  }

  // ---------------------------------------------------------------------
  // Fan-out
  // ---------------------------------------------------------------------

  /** `AdminChat.objects.filter(is_active=True)`: the active rows, each as
      often as it occurs in the table. */
  function ActiveAdminRows(admins: seq<AdminChat>): (r: seq<AdminChat>)
    ensures forall a :: multiset(r)[a] == if a.active then multiset(admins)[a] else 0
  {
    if admins == [] then []
    else
      var rest := ActiveAdminRows(admins[1..]);
      assert admins == [admins[0]] + admins[1..];
      if admins[0].active then [admins[0]] + rest else rest
  }

  /** The active chats in the model's `ordering = ['-created_at']`: newest
      chat first. */
  function ActiveAdmins(admins: seq<AdminChat>): (r: seq<AdminChat>)
    ensures NewestFirst(r, AdminCreated)
    ensures forall a :: multiset(r)[a] == if a.active then multiset(admins)[a] else 0
  {
    SortNewestFirst(ActiveAdminRows(admins), AdminCreated)
  }

  /** `get_active_admin_chats`: the chat ids of the active chats, newest
      chat first; every active chat id and nothing else, once each when
      chat ids are unique. */
  function ActiveChatIds(admins: seq<AdminChat>): (r: seq<int>)
    ensures var rows := ActiveAdmins(admins);
      |r| == |rows| && forall i :: 0 <= i < |r| ==> r[i] == rows[i].chatId
    ensures forall x :: x in r <==> exists i :: 0 <= i < |admins| && admins[i].active && admins[i].chatId == x
    ensures UniqueChatIds(admins) ==> Distinct(r)
  {
    var rows := ActiveAdmins(admins);
    var r := seq(|rows|, i requires 0 <= i < |rows| => rows[i].chatId);
    ChatIdsOfActive(admins, rows, r);
    ChatIdsDistinct(admins, rows, r);
    r
  }

  lemma ChatIdsOfActive(admins: seq<AdminChat>, rows: seq<AdminChat>, r: seq<int>)
    requires forall a :: multiset(rows)[a] == if a.active then multiset(admins)[a] else 0
    requires |r| == |rows| && forall i :: 0 <= i < |r| ==> r[i] == rows[i].chatId
    ensures forall x :: x in r <==> exists i :: 0 <= i < |admins| && admins[i].active && admins[i].chatId == x
  {
    forall x | x in r
      ensures exists i :: 0 <= i < |admins| && admins[i].active && admins[i].chatId == x
    {
      var k :| 0 <= k < |r| && r[k] == x;
      assert rows[k] in multiset(rows);
      assert rows[k] in multiset(admins);
      var i :| 0 <= i < |admins| && admins[i] == rows[k];
    }
    forall x | exists i :: 0 <= i < |admins| && admins[i].active && admins[i].chatId == x
      ensures x in r
    {
      var i :| 0 <= i < |admins| && admins[i].active && admins[i].chatId == x;
      assert admins[i] in multiset(admins);
      assert admins[i] in multiset(rows);
      var k :| 0 <= k < |rows| && rows[k] == admins[i];
      assert r[k] == x;
    }
  }

  lemma ChatIdsDistinct(admins: seq<AdminChat>, rows: seq<AdminChat>, r: seq<int>)
    requires forall a :: multiset(rows)[a] == if a.active then multiset(admins)[a] else 0
    requires |r| == |rows| && forall i :: 0 <= i < |r| ==> r[i] == rows[i].chatId
    ensures UniqueChatIds(admins) ==> Distinct(r)
  {
    forall i, j | UniqueChatIds(admins) && 0 <= i < j < |r|
      ensures r[i] != r[j]
    {
      assert rows[i] in multiset(rows) && rows[j] in multiset(rows);
      assert rows[i] in multiset(admins) && rows[j] in multiset(admins);
      var p :| 0 <= p < |admins| && admins[p] == rows[i];
      var q :| 0 <= q < |admins| && admins[q] == rows[j];
      if p == q {
        CountedTwice(rows, i, j);
        ChatRowsOnce(admins, rows[i]);
        assert false;
      }
    }
  }

  /** A value at two positions of a sequence occurs at least twice. */
  lemma CountedTwice<T>(s: seq<T>, i: nat, j: nat)
    requires i < j < |s| && s[i] == s[j]
    ensures multiset(s)[s[i]] >= 2
  {
    assert s == s[..j] + s[j..];
    assert s[i] in s[..j];
    assert s[j..][0] == s[j];
  }

  /** With unique chat ids, no administrator row occurs twice. */
  lemma {:induction false} ChatRowsOnce(admins: seq<AdminChat>, a: AdminChat)
    requires UniqueChatIds(admins)
    ensures multiset(admins)[a] <= 1
  {
    if admins != [] {
      assert admins == [admins[0]] + admins[1..];
      assert UniqueChatIds(admins[1..]) by {
        forall i, j | 0 <= i < j < |admins[1..]|
          ensures admins[1..][i].chatId != admins[1..][j].chatId
        {
          assert admins[1..][i] == admins[i + 1] && admins[1..][j] == admins[j + 1];
        }
      }
      ChatRowsOnce(admins[1..], a);
      if admins[0] == a {
        assert a !in admins[1..] by {
          forall k | 0 <= k < |admins[1..]|
            ensures admins[1..][k] != a
          {
            assert admins[1..][k] == admins[k + 1];
          }
        }
      }
    }
  }

  /** In a store whose chats pass `AdminChat.clean`, every destination is a
      positive chat id. */
  lemma DestinationsPositive(s: Store)
    requires s.Valid()
    ensures forall x :: x in ActiveChatIds(s.admins) ==> x > 0
  {
  }

  ghost predicate Distinct(s: seq<int>) {
    forall i, j :: 0 <= i < j < |s| ==> s[i] != s[j]
  }

  /** How many of the destinations accept the message. */
  function Delivered(ids: seq<int>, ok: int -> bool): (n: nat)
    ensures n <= |ids|
  {
    if ids == [] then 0
    else Delivered(ids[..|ids| - 1], ok) + (if ok(ids[|ids| - 1]) then 1 else 0)
  }

  lemma {:induction false} DeliveredAppend(a: seq<int>, b: seq<int>, ok: int -> bool)
    ensures Delivered(a + b, ok) == Delivered(a, ok) + Delivered(b, ok)
  {
    if b != [] {
      DeliveredAppend(a, b[..|b| - 1], ok);
      assert (a + b)[..|a + b| - 1] == a + b[..|b| - 1];
    } else {
      assert a + b == a;
    }
  }

  /** The outcome does not depend on the order the destinations are tried
      in: a failing destination tried first or last loses the same one
      delivery. */
  lemma DeliveryOrderIrrelevant(a: seq<int>, b: seq<int>, ok: int -> bool)
    ensures Delivered(a + b, ok) == Delivered(b + a, ok)
  {
    DeliveredAppend(a, b, ok);
    DeliveredAppend(b, a, ok);
  }

  /** What one delivery round reports. */
  datatype FanOutReport = FanOutReport(attempted: seq<int>, successes: nat, errors: nat)

  /** The delivery loop: one send per destination, each failure counted and
      isolated, so every destination is attempted exactly once and the two
      counters add up to the number of destinations. */
  method FanOut(ids: seq<int>, ok: int -> bool) returns (report: FanOutReport)
    ensures report.attempted == ids
    ensures report.successes == Delivered(ids, ok)
    ensures report.successes + report.errors == |ids|
  {
    var attempted: seq<int> := [];
    var successes := 0;
    var errors := 0;
    var i := 0;
    while i < |ids|
      invariant 0 <= i <= |ids|
      invariant attempted == ids[..i]
      invariant successes == Delivered(ids[..i], ok)
      invariant successes + errors == i
    {
      assert ids[..i + 1][..i] == ids[..i];
      attempted := attempted + [ids[i]];
      if ok(ids[i]) {
        successes := successes + 1;
      } else {
        errors := errors + 1;
      }
      i := i + 1;
    }
    assert ids[..|ids|] == ids;
    report := FanOutReport(attempted, successes, errors);
  }

  /** The notification bot as the environment presents it: whether its token
      is configured and whether it starts up. */
  datatype Notifier = Notifier(tokenSet: bool, starts: bool)

  datatype NotifyOutcome =
    | NotAttempted                                // the caller had nothing to announce
    | NoToken                                     // returned before doing anything
    | Aborted                                     // the guarded block raised before sending
    | NoDestinations                              // logged a warning, sent nothing
    | Broadcast(report: FanOutReport)

  /** The sends an outcome performed. */
  function Sends(out: NotifyOutcome): seq<int> {
    if out.Broadcast? then out.report.attempted else []
  }

  /** `send_notification_to_admin`: never raises; sends the summary of the
      transfer to every active chat exactly once when the token is set, the
      transfer exists and the bot starts, and sends nothing otherwise. */
  method NotifyTransfer(s: Store, transferId: int, bot: Notifier, ok: int -> bool)
    returns (out: NotifyOutcome)
    ensures !bot.tokenSet ==> out == NoToken
    ensures Sends(out) != [] ==> bot.tokenSet && bot.starts && TransferNoticeOf(s, transferId).Some?
    ensures bot.tokenSet && bot.starts && TransferNoticeOf(s, transferId).Some? ==>
      && Sends(out) == ActiveChatIds(s.admins)
      && (out.Broadcast? <==> ActiveChatIds(s.admins) != [])
      && (out.Broadcast? ==> (out.report.successes + out.report.errors == |ActiveChatIds(s.admins)|
                              && out.report.successes == Delivered(ActiveChatIds(s.admins), ok)))
  {
    if !bot.tokenSet {
      return NoToken;
    }
    var notice := TransferNoticeOf(s, transferId);
    if notice.None? || !bot.starts {
      return Aborted;
    }
    var ids := ActiveChatIds(s.admins);
    if ids == [] {
      return NoDestinations;
    }
    var report := FanOut(ids, ok);
    out := Broadcast(report);
  }

  /** `send_exchange_order_notification`: the same delivery discipline for
      the summary of an exchange order. */
  method NotifyOrder(s: Store, o: ExchangeOrder, bot: Notifier, ok: int -> bool)
    returns (out: NotifyOutcome, notice: OrderNotice)
    ensures notice == OrderNoticeOf(o)
    ensures !bot.tokenSet ==> out == NoToken
    ensures Sends(out) != [] ==> bot.tokenSet && bot.starts
    ensures bot.tokenSet && bot.starts ==>
      && Sends(out) == ActiveChatIds(s.admins)
      && (out.Broadcast? ==> (out.report.successes + out.report.errors == |ActiveChatIds(s.admins)|
                              && out.report.successes == Delivered(ActiveChatIds(s.admins), ok)))
  {
    notice := OrderNoticeOf(o);
    if !bot.tokenSet {
      return NoToken, notice;
    }
    if !bot.starts {
      return Aborted, notice;
    }
    var ids := ActiveChatIds(s.admins);
    if ids == [] {
      return NoDestinations, notice;
    }
    var report := FanOut(ids, ok);
    out := Broadcast(report);
  }
}

=== FILE: numerals.dfy ===
/** Decimal text for integers and Decimal values: rendering an integer the
    way Python's `str(int)` does, and reading text the way `int(text)` and
    `Decimal(text)` do for plain positional notation. */
module Numerals {
  import opened Common

  predicate IsDigit(c: char) {
    '0' <= c <= '9'
  }

  predicate AllDigits(s: string) {
    forall i :: 0 <= i < |s| ==> IsDigit(s[i])
  }

  function DigitChar(d: nat): (c: char)
    requires d < 10
    ensures IsDigit(c) && c as int - '0' as int == d
  {
    (d + '0' as int) as char
  }

  function DigitValue(c: char): (d: nat)
    requires IsDigit(c)
    ensures d < 10 && DigitChar(d) == c
  {
    c as int - '0' as int
  }

  /** The value of a string of decimal digits, most significant first. */
  function DigitsValue(s: string): nat
    requires AllDigits(s)
  {
    if s == [] then 0 else DigitsValue(s[..|s| - 1]) * 10 + DigitValue(s[|s| - 1])
  }

  function Pow10(n: nat): (p: nat)
    ensures p >= 1
  {
    if n == 0 then 1 else 10 * Pow10(n - 1)
  }

  /** `str(n)` for a natural number: the shortest digit string denoting it. */
  function NatToString(n: nat): (r: string)
    ensures 1 <= |r| && AllDigits(r)
    ensures |r| > 1 ==> r[0] != '0'
  {
    if n < 10 then [DigitChar(n)] else NatToString(n / 10) + [DigitChar(n % 10)]
  }

  /** `str(i)` for any integer. */
  function IntToString(i: int): (r: string)
    ensures 1 <= |r| && (r[0] == '-' <==> i < 0)
  {
    if i < 0 then "-" + NatToString(-i) else NatToString(i)
  }

  lemma {:induction false} NatToStringValue(n: nat)
    ensures DigitsValue(NatToString(n)) == n
  {
    var r := NatToString(n);
    if n >= 10 {
      NatToStringValue(n / 10);
      assert r[..|r| - 1] == NatToString(n / 10);
    }
  }

  predicate IsSign(c: char) {
    c == '-' || c == '+'
  }

  /** Splits off an optional leading sign: `true` for a minus sign. */
  function SplitSign(s: string): (bool, string) {
    if |s| > 0 && IsSign(s[0]) then (s[0] == '-', s[1..]) else (false, s)
  }

  /** Stripped integer text: an optional sign followed by one or more
      digits, and nothing else. */
  ghost predicate IntText(t: string) {
    && t != []
    && (IsDigit(t[0]) || (IsSign(t[0]) && |t| > 1))
    && forall i :: 0 < i < |t| ==> IsDigit(t[i])
  }

  /** Python's `int(text)` for base-10 text: surrounding whitespace, an
      optional sign and at least one ASCII digit; `None` where Python raises
      `ValueError`. */
  function ParseInt(s: string): (r: Option<int>)
    ensures r.Some? <==> IntText(Strip(s))
    ensures r.Some? ==> !Blank(s)
    ensures r.Some? && r.value < 0 ==> Strip(s)[0] == '-'
    ensures r.Some? && Strip(s)[0] == '-' ==> r.value <= 0
  {
    var (negative, digits) := SplitSign(Strip(s));
    IntTextSplit(Strip(s));
    if digits == [] || !AllDigits(digits) then None
    else
      var v: int := DigitsValue(digits);
      Some(if negative then -v else v)
  }

  /** Integer text is exactly a non-empty digit string once the optional
      sign is split off. */
  lemma IntTextSplit(t: string)
    ensures var (_, digits) := SplitSign(t);
      IntText(t) <==> digits != [] && AllDigits(digits)
    ensures t != [] && t[0] == '-' <==> SplitSign(t).0
  {
    var (_, digits) := SplitSign(t);
    if t != [] && IsSign(t[0]) {
      assert forall i :: 0 <= i < |digits| ==> digits[i] == t[i + 1];
    } else if t != [] && AllDigits(digits) {
      assert IsDigit(t[0]);
    }
  }

  /** Reading back the text of an integer gives the integer. */
  lemma IntRoundTrip(i: int)
    ensures ParseInt(IntToString(i)) == Some(i)
  {
    var t := IntToString(i);
    var digits := NatToString(if i < 0 then -i else i);
    assert !IsSpace(t[0]) && !IsSpace(t[|t| - 1]);
    StripTrimmed(t);
    assert SplitSign(t).1 == digits;
    NatToStringValue(if i < 0 then -i else i);
  }

  /** Unsigned decimal text: digits and at most one decimal point, with at
      least one digit. */
  ghost predicate DecimalBody(b: string) {
    && (forall i :: 0 <= i < |b| ==> IsDigit(b[i]) || b[i] == '.')
    && (forall i, j :: 0 <= i < j < |b| && b[i] == '.' ==> b[j] != '.')
    && (exists i :: 0 <= i < |b| && IsDigit(b[i]))
  }

  /** Stripped decimal text: an optional sign, then unsigned decimal text. */
  ghost predicate DecimalText(t: string) {
    if t != [] && IsSign(t[0]) then DecimalBody(t[1..]) else DecimalBody(t)
  }

  /** Python's `Decimal(text)` for positional notation: surrounding
      whitespace, an optional sign, then digits with at most one decimal
      point and at least one digit; `None` where Python raises
      `InvalidOperation`. */
  function ParseDecimal(s: string): (r: Option<real>)
    ensures r.Some? <==> DecimalText(Strip(s))
    ensures r.Some? ==> !Blank(s)
    ensures r.Some? && r.value < 0.0 ==> Strip(s)[0] == '-'
  {
    SignedDecimal(Strip(s))
  }

  /** Stripped decimal text: an optional sign, then an unsigned decimal. */
  function SignedDecimal(t: string): (r: Option<real>)
    ensures r.Some? <==> DecimalText(t)
    ensures r.Some? ==> t != []
    ensures r.Some? && r.value < 0.0 ==> t[0] == '-'
  {
    var (negative, body) := SplitSign(t);
    match UnsignedDecimal(body)
    case None => None
    case Some(v) => Some(if negative then -v else v)
  }

  /** Digits with at most one decimal point and at least one digit. */
  function UnsignedDecimal(body: string): (r: Option<real>)
    ensures r.Some? <==> DecimalBody(body)
    ensures r.Some? ==> r.value >= 0.0
  {
    var whole := WholePart(body);
    var fraction := FractionPart(body);
    if whole + fraction == [] || !AllDigits(whole) || !AllDigits(fraction) then
      BodyHasDigitsAroundPoint(body);
      None
    else
      DigitsAroundPointMakeBody(body);
      Some(DigitsValue(whole) as real + Fraction(fraction))
  }

  /** The text before the first decimal point. */
  function WholePart(body: string): string {
    body[..PointIndex(body)]
  }

  /** The text after the first decimal point; empty without one. */
  function FractionPart(body: string): string {
    var point := PointIndex(body);
    if point < |body| then body[point + 1..] else []
  }

  lemma DigitsAroundPointMakeBody(body: string)
    requires WholePart(body) + FractionPart(body) != []
    requires AllDigits(WholePart(body)) && AllDigits(FractionPart(body))
    ensures DecimalBody(body)
  {
    var point := PointIndex(body);
    var whole := WholePart(body);
    var fraction := FractionPart(body);
    forall i | 0 <= i < |body| && i != point
      ensures IsDigit(body[i])
    {
      if i < point {
        assert body[i] == whole[i];
      } else {
        assert body[i] == fraction[i - point - 1];
      }
    }
    if whole != [] {
      assert IsDigit(body[0]);
    } else {
      assert IsDigit(body[point + 1]);
    }
  }

  lemma BodyHasDigitsAroundPoint(body: string)
    ensures DecimalBody(body) ==>
      && WholePart(body) + FractionPart(body) != []
      && AllDigits(WholePart(body)) && AllDigits(FractionPart(body))
  {
    if !DecimalBody(body) {
      return;
    }
    var point := PointIndex(body);
    var whole := WholePart(body);
    var fraction := FractionPart(body);
    assert forall i :: 0 <= i < |whole| ==> whole[i] == body[i];
    if point < |body| {
      assert forall i :: 0 <= i < |fraction| ==> fraction[i] == body[point + 1 + i];
      assert forall j :: point < j < |body| ==> body[j] != '.';
    }
    var k :| 0 <= k < |body| && IsDigit(body[k]);
    if k < point {
      assert whole[k] == body[k];
    } else {
      assert fraction[k - point - 1] == body[k];
    }
  }

  /** The value of the digits after a decimal point. */
  function Fraction(digits: string): (v: real)
    requires AllDigits(digits)
    ensures 0.0 <= v
  {
    DigitsValue(digits) as real / Pow10(|digits|) as real
  }

  /** The index of the first '.' in `s`, or `|s|` when there is none. */
  function PointIndex(s: string): (k: nat)
    ensures k <= |s|
    ensures k < |s| ==> s[k] == '.'
    ensures forall i :: 0 <= i < k ==> s[i] != '.'
  {
    if s == [] then 0 else if s[0] == '.' then 0 else 1 + PointIndex(s[1..])
  }

  lemma UnsignedDecimalOfDigits(body: string)
    requires body != [] && AllDigits(body)
    ensures UnsignedDecimal(body) == Some(DigitsValue(body) as real)
  {
    assert PointIndex(body) == |body|;
    assert body[..|body|] == body;
  }

  /** Every text `int()` accepts, `Decimal()` accepts with the same value. */
  lemma DecimalExtendsInt(s: string)
    requires ParseInt(s).Some?
    ensures ParseDecimal(s) == Some(ParseInt(s).value as real)
  {
    var (negative, body) := SplitSign(Strip(s));
    UnsignedDecimalOfDigits(body);
  }

  /** Reading back the text of an integer as a Decimal gives its value. */
  lemma DecimalOfIntText(i: int)
    ensures ParseDecimal(IntToString(i)) == Some(i as real)
  {
    IntRoundTrip(i);
    DecimalExtendsInt(IntToString(i));
  }

  /** Surrounding whitespace does not change what `Decimal()` reads. */
  lemma DecimalIgnoresSurroundingSpace(s: string)
    ensures ParseDecimal(Strip(s)) == ParseDecimal(s)
  {
    StripIdempotent(s);
  }

  lemma {:induction false} PointAfterDigits(a: string, b: string)
    requires AllDigits(a)
    ensures PointIndex(a + "." + b) == |a|
  {
    if a == [] {
      assert a + "." + b == "." + b;
    } else {
      assert (a + "." + b)[0] == a[0];
      assert (a + "." + b)[1..] == a[1..] + "." + b;
      PointAfterDigits(a[1..], b);
    }
  }

  lemma FractionOfDigit(d: char)
    requires IsDigit(d)
    ensures Fraction([d]) == DigitValue(d) as real / 10.0
  {
    assert [d][..0] == [];
    assert DigitsValue([d]) == DigitValue(d);
    assert Pow10(|[d]|) == 10;
  }

  /** A body whose parts around the first point are digits reads as the
      whole part plus the fraction. */
  lemma UnsignedDecimalOfParts(body: string)
    requires WholePart(body) != [] && AllDigits(WholePart(body)) && AllDigits(FractionPart(body))
    ensures UnsignedDecimal(body) == Some(DigitsValue(WholePart(body)) as real + Fraction(FractionPart(body)))
  {
    assert WholePart(body) + FractionPart(body) != [];
  }

  lemma UnsignedDecimalTenths(whole: string, d: char)
    requires whole != [] && AllDigits(whole) && IsDigit(d)
    ensures UnsignedDecimal(whole + "." + [d]) == Some(DigitsValue(whole) as real + DigitValue(d) as real / 10.0)
  {
    var body := whole + "." + [d];
    PointAfterDigits(whole, [d]);
    assert WholePart(body) == whole by {
      assert body[..|whole|] == whole;
    }
    assert FractionPart(body) == [d] by {
      assert body[|whole| + 1..] == [d];
    }
    UnsignedDecimalOfParts(body);
    FractionOfDigit(d);
  }

  /** The text `w.f` of a number with one decimal place reads back as
      `w + f/10`. */
  lemma DecimalTenths(w: nat, f: nat)
    requires f < 10
    ensures ParseDecimal(NatToString(w) + "." + [DigitChar(f)]) == Some(w as real + f as real / 10.0)
  {
    var whole := NatToString(w);
    var s := whole + "." + [DigitChar(f)];
    assert IsDigit(s[0]) && IsDigit(s[|s| - 1]) by {
      assert s[0] == whole[0] && s[|s| - 1] == DigitChar(f);
    }
    StripTrimmed(s);
    assert SplitSign(s) == (false, s);
    UnsignedDecimalTenths(whole, DigitChar(f));
    assert ParseDecimal(s) == UnsignedDecimal(s);
    NatToStringValue(w);
  }
}

=== FILE: ordering.dfy ===
/** The orders the schema lists rows in. Rows with a creation time are
    listed newest first (`ordering = ['-created_at']` and
    `order_by('-created_at')`). Text columns compare by code point, which is
    how SQLite's default BINARY collation compares UTF-8 text; a proper
    prefix comes first. */
module Ordering {

  // ---------------------------------------------------------------------
  // Newest first
  // ---------------------------------------------------------------------

  /** `s` lists its rows newest first by `time`. */
  ghost predicate NewestFirst<T>(s: seq<T>, time: T -> int) {
    forall i, j :: 0 <= i < j < |s| ==> time(s[i]) >= time(s[j])
  }

  /** Putting `x` in front of a newest-first sequence keeps it newest first
      when `x` is no older than its first row. */
  lemma ConsNewestFirst<T>(x: T, t: seq<T>, time: T -> int)
    requires NewestFirst(t, time)
    requires t == [] || time(x) >= time(t[0])
    ensures NewestFirst([x] + t, time)
  {
    var r := [x] + t;
    forall i, j | 0 <= i < j < |r|
      ensures time(r[i]) >= time(r[j])
    {
      if i == 0 {
        assert r[j] == t[j - 1];
        if j > 1 {
          assert time(t[0]) >= time(t[j - 1]);
        }
      } else {
        assert r[i] == t[i - 1] && r[j] == t[j - 1];
      }
    }
  }

  /** Dropping the newest row leaves the rest newest first. */
  lemma TailNewestFirst<T>(s: seq<T>, time: T -> int)
    requires NewestFirst(s, time) && s != []
    ensures NewestFirst(s[1..], time)
  {
    var t := s[1..];
    forall i, j | 0 <= i < j < |t|
      ensures time(t[i]) >= time(t[j])
    {
      assert t[i] == s[i + 1] && t[j] == s[j + 1];
    }
  }

  /** Re-attaching the head after inserting into the tail adds exactly `x`. */
  lemma ReattachMultiset<T>(x: T, s: seq<T>, rest: seq<T>)
    requires s != []
    requires multiset(rest) == multiset(s[1..]) + multiset{x}
    ensures multiset([s[0]] + rest) == multiset(s) + multiset{x}
  {
    assert s == [s[0]] + s[1..];
  }

  function InsertNewestFirst<T>(x: T, s: seq<T>, time: T -> int): (r: seq<T>)
    requires NewestFirst(s, time)
    ensures NewestFirst(r, time)
    ensures multiset(r) == multiset(s) + multiset{x}
    ensures |r| == |s| + 1
    ensures r[0] == x || (s != [] && r[0] == s[0])
  {
    if s == [] || time(x) >= time(s[0]) then
      ConsNewestFirst(x, s, time);
      [x] + s
    else
      TailNewestFirst(s, time);
      var rest := InsertNewestFirst(x, s[1..], time);
      assert |s| > 1 ==> time(s[0]) >= time(s[1]);
      ConsNewestFirst(s[0], rest, time);
      ReattachMultiset(x, s, rest);
      [s[0]] + rest
  }

  /** The same rows, newest first. */
  function SortNewestFirst<T>(s: seq<T>, time: T -> int): (r: seq<T>)
    ensures NewestFirst(r, time)
    ensures multiset(r) == multiset(s)
  {
    if s == [] then []
    else
      assert s == [s[0]] + s[1..];
      InsertNewestFirst(s[0], SortNewestFirst(s[1..], time), time)
  }

  // ---------------------------------------------------------------------
  // Text by code point
  // ---------------------------------------------------------------------

  /** `a` sorts no later than `b`: at the first difference the smaller
      code point wins, and a proper prefix sorts first. */
  predicate CodeLeq(a: string, b: string) {
    a == [] || (b != [] && (a[0] < b[0] || (a[0] == b[0] && CodeLeq(a[1..], b[1..]))))
  }

  lemma {:induction false} CodeLeqTotal(a: string, b: string)
    ensures CodeLeq(a, b) || CodeLeq(b, a)
  {
    if a != [] && b != [] && a[0] == b[0] {
      CodeLeqTotal(a[1..], b[1..]);
    }
  }

  lemma {:induction false} CodeLeqAntisymmetric(a: string, b: string)
    requires CodeLeq(a, b) && CodeLeq(b, a)
    ensures a == b
  {
    if a != [] {
      CodeLeqAntisymmetric(a[1..], b[1..]);
      assert a == [a[0]] + a[1..] && b == [b[0]] + b[1..];
    }
  }

  lemma {:induction false} CodeLeqTransitive(a: string, b: string, c: string)
    requires CodeLeq(a, b) && CodeLeq(b, c)
    ensures CodeLeq(a, c)
  {
    if a != [] && a[0] == b[0] && b[0] == c[0] {
      CodeLeqTransitive(a[1..], b[1..], c[1..]);
    }
  }
}

=== FILE: views.dfy ===
/** The JSON HTTP API: exchange-order intake, transfer intake, a user's
    orders, active rates and bot message texts. A handler takes the store and
    the decoded request and returns the new store and the response; a
    response is a success value (status 201 or 200), a rejection with the
    reason the client is told (status 400) or an internal error (status
    500). */
module Views {
  import opened Common
  import opened Json
  import opened Models
  import opened Ordering
  import Numerals
  import Notifications

  datatype Response<+T, +E> = Ok(value: T) | Rejected(reason: E) | ServerError

  /** The HTTP status a response is sent with; `created` marks the two
      creating endpoints. The status class tells the three kinds of
      response apart, and only a creating endpoint answers 201. */
  function StatusCode<T, E>(r: Response<T, E>, created: bool): (code: int)
    ensures r.Ok? ==> code == (if created then 201 else 200)
    ensures r.Rejected? ==> code == 400
    ensures r.ServerError? ==> code == 500
    ensures 200 <= code < 300 <==> r.Ok?
    ensures 400 <= code < 500 <==> r.Rejected?
    ensures 500 <= code < 600 <==> r.ServerError?
    ensures code == 201 <==> r.Ok? && created
  {
    match r
    case Ok(_) => if created then 201 else 200
    case Rejected(_) => 400
    case ServerError => 500
  }

  /** A handler's result: the store after the request and the response. */
  datatype Outcome<+T, +E> = Outcome(store: Store, response: Response<T, E>)

  /** The first of `fields` that is not a key of `data`. */
  function FirstMissing(fields: seq<string>, data: Body): (r: Option<nat>)
    ensures r.Some? ==> r.value < |fields| && fields[r.value] !in data
                        && forall j :: 0 <= j < r.value ==> fields[j] in data
    ensures r.None? ==> forall j :: 0 <= j < |fields| ==> fields[j] in data
    ensures r.None? <==> forall f :: f in fields ==> f in data
  {
    if fields == [] then None
    else if fields[0] !in data then Some(0)
    else match FirstMissing(fields[1..], data)
      case None => None
      case Some(k) => Some(k + 1)
  }

  const MissingPrefix: string := "Поле "
  const MissingSuffix: string := " обязательно для заполнения"

  /** The `error` text for a missing required field: the field's name
      between a fixed prefix and suffix, where the client can read it back. */
  function MissingFieldText(field: string): (t: string)
    ensures |t| == |MissingPrefix| + |field| + |MissingSuffix|
    ensures t[|MissingPrefix|..|MissingPrefix| + |field|] == field
    ensures t[0] == 'П'
  {
    MissingPrefix + field + MissingSuffix
  }

  /** Two missing-field texts are the same only for the same field. */
  lemma MissingFieldTextNamesField(f: string, g: string)
    ensures MissingFieldText(f) == MissingFieldText(g) <==> f == g
  {
    if MissingFieldText(f) == MissingFieldText(g) {
      assert |f| == |g|;
    }
  }

  // ---------------------------------------------------------------------
  // create_exchange_order
  // ---------------------------------------------------------------------

  const OrderFields: seq<string> := ["order_type", "amount", "exchange_rate", "full_name", "wallet_address"]

  datatype OrderError =
    | OrderMissingField(field: string)
    | BadOrderType
    | BadNumber
    | AmountNotPositive
    | RateNotPositive
    | BlankFullName
    | BlankWallet

  /** The `error` text of each rejection. */
  function OrderErrorText(e: OrderError): (t: string)
    ensures e.OrderMissingField? ==> t == MissingFieldText(e.field)
  {
    match e
    case OrderMissingField(f) => MissingFieldText(f)
    case BadOrderType => "Тип заявки должен быть \"buy\" или \"sell\""
    case BadNumber => "Неверный формат числовых значений"
    case AmountNotPositive => "Сумма должна быть больше нуля"
    case RateNotPositive => "Курс обмена должен быть больше нуля"
    case BlankFullName => "Ф.И.О не может быть пустым"
    case BlankWallet => "Адрес кошелька не может быть пустым"
  }

  /** Different rejections are told to the client in different words, so
      the `error` text identifies the reason. */
  lemma OrderErrorTextDistinct(a: OrderError, b: OrderError)
    ensures OrderErrorText(a) == OrderErrorText(b) <==> a == b
  {
    if OrderErrorText(a) == OrderErrorText(b) {
      if a.OrderMissingField? && b.OrderMissingField? {
        MissingFieldTextNamesField(a.field, b.field);
      } else {
        assert OrderErrorText(a)[0] == OrderErrorText(b)[0];
      }
    }
  }

  /** The direction named by an `order_type` value, if it names one. */
  function OrderTypeOf(v: Json): (r: Option<OrderType>)
    ensures r == Some(Buy) <==> v == JString("buy")
    ensures r == Some(Sell) <==> v == JString("sell")
  {
    if v == JString("buy") then Some(Buy) else if v == JString("sell") then Some(Sell) else None
  }

  /** The amount received for `amount` at `rate`: a sale multiplies, a
      purchase divides. Converting the result back at the same rate gives
      the amount again. */
  function AmountToReceive(t: OrderType, amount: real, rate: real): (r: real)
    requires rate > 0.0
    ensures t == Sell ==> r / rate == amount
    ensures t == Buy ==> r * rate == amount
    ensures amount > 0.0 ==> r > 0.0
  {
    match t
    case Sell => amount * rate
    case Buy => amount / rate
  }

  /** `data.get('telegram_user_id')` as stored in the order: a JSON integer
      that fits the 64-bit column, or nothing. A wider integer makes the
      insert raise. */
  function OrderUserId(data: Body): (r: Option<Option<int>>)
    ensures r.Some? ==> Get(data, "telegram_user_id") == (if r.value.Some? then JInt(r.value.value) else JNull)
    ensures r.Some? && r.value.Some? ==> FitsBigInt(r.value.value)
    ensures Get(data, "telegram_user_id").JInt? && !FitsBigInt(Get(data, "telegram_user_id").i) ==> r.None?
  {
    match Get(data, "telegram_user_id")
    case JNull => Some(None)
    case JInt(i) => if FitsBigInt(i) then Some(Some(i)) else None
    case _ => None
  }

  /** The outcome of one intake check: a value to go on with, a rejection,
      or an exception the handler turns into an internal error. */
  datatype Check<+T, +E> = Pass(value: T) | Refuse(reason: E) | Crash

  /** `Decimal(str(...))` of amount and rate, then their signs: both are
      converted before either sign is looked at, and the amount's sign is
      looked at before the rate's. */
  function CheckAmounts(amount: Json, rate: Json): (c: Check<(real, real), OrderError>)
    ensures !c.Crash?
    ensures DecimalOf(amount).None? || DecimalOf(rate).None? ==> c == Refuse(BadNumber)
    ensures DecimalOf(amount).Some? && DecimalOf(rate).Some? ==>
      && (DecimalOf(amount).value <= 0.0 ==> c == Refuse(AmountNotPositive))
      && (DecimalOf(amount).value > 0.0 && DecimalOf(rate).value <= 0.0 ==> c == Refuse(RateNotPositive))
      && (DecimalOf(amount).value > 0.0 && DecimalOf(rate).value > 0.0 ==>
            c == Pass((DecimalOf(amount).value, DecimalOf(rate).value)))
  {
    var a := DecimalOf(amount);
    var x := DecimalOf(rate);
    if a.None? || x.None? then Refuse(BadNumber)
    else if a.value <= 0.0 then Refuse(AmountNotPositive)
    else if x.value <= 0.0 then Refuse(RateNotPositive)
    else Pass((a.value, x.value))
  }

  /** `value.strip()` followed by the blank check; `.strip()` raises on a
      value that is not a string. */
  function CheckText<E>(v: Json, blank: E): (c: Check<string, E>)
    ensures c.Crash? <==> !v.JString?
    ensures c.Refuse? <==> v.JString? && Blank(v.s)
    ensures c.Refuse? ==> c.reason == blank
    ensures c.Pass? ==> c.value == Strip(v.s) && c.value != ""
  {
    if !v.JString? then Crash
    else if Blank(v.s) then Refuse(blank)
    else Pass(Strip(v.s))
  }

  /** Every required field of an exchange order is present. */
  predicate HasOrderFields(data: Body) {
    && "order_type" in data && "amount" in data && "exchange_rate" in data
    && "full_name" in data && "wallet_address" in data
  }

  /** Everything the intake checks holds of the request. */
  ghost predicate OrderAcceptable(data: Body) {
    && HasOrderFields(data)
    && OrderTypeOf(data["order_type"]).Some?
    && CheckAmounts(data["amount"], data["exchange_rate"]).Pass?
    && data["full_name"].JString? && !Blank(data["full_name"].s)
    && data["wallet_address"].JString? && !Blank(data["wallet_address"].s)
    && OrderUserId(data).Some?
  }

  /** The missing-field scan over the order fields finds nothing exactly
      when every required field is present. */
  lemma OrderFieldsScan(data: Body)
    ensures FirstMissing(OrderFields, data).None? <==> HasOrderFields(data)
  {
    assert OrderFields[0] == "order_type" && OrderFields[1] == "amount"
      && OrderFields[2] == "exchange_rate" && OrderFields[3] == "full_name"
      && OrderFields[4] == "wallet_address";
  }

  /** The order type and both numbers pass their checks. */
  ghost predicate NumbersPass(data: Body) {
    && HasOrderFields(data)
    && OrderTypeOf(data["order_type"]).Some?
    && CheckAmounts(data["amount"], data["exchange_rate"]).Pass?
  }

  /** The full name passes its check too. */
  ghost predicate NamePasses(data: Body) {
    && NumbersPass(data)
    && CheckText(data["full_name"], BlankFullName).Pass?
  }

  /** The wallet address passes its check too. */
  ghost predicate WalletPasses(data: Body) {
    && NamePasses(data)
    && CheckText(data["wallet_address"], BlankWallet).Pass?
  }

  /** The checks of `create_exchange_order` after the missing-field scan. */
  function CheckedOrder(s: Store, data: Body, now: int): (r: Outcome<ExchangeOrder, OrderError>)
    requires HasOrderFields(data)
    ensures r.response.Ok? <==> OrderAcceptable(data)
    ensures !r.response.Ok? ==> r.store == s
    ensures OrderTypeOf(data["order_type"]).None? ==> r.response == Rejected(BadOrderType)
    ensures OrderTypeOf(data["order_type"]).Some? && CheckAmounts(data["amount"], data["exchange_rate"]).Refuse? ==>
      r.response == Rejected(CheckAmounts(data["amount"], data["exchange_rate"]).reason)
    ensures NumbersPass(data) && CheckText(data["full_name"], BlankFullName).Refuse? ==>
      r.response == Rejected(BlankFullName)
    ensures NumbersPass(data) && CheckText(data["full_name"], BlankFullName).Crash? ==>
      r.response == ServerError
    ensures NamePasses(data) && CheckText(data["wallet_address"], BlankWallet).Refuse? ==>
      r.response == Rejected(BlankWallet)
    ensures NamePasses(data) && CheckText(data["wallet_address"], BlankWallet).Crash? ==>
      r.response == ServerError
    ensures WalletPasses(data) && OrderUserId(data).None? ==> r.response == ServerError
  {
    match OrderTypeOf(data["order_type"])
    case None => Outcome(s, Rejected(BadOrderType))
    case Some(orderType) =>
      match CheckAmounts(data["amount"], data["exchange_rate"])
      case Refuse(e) => Outcome(s, Rejected(e))
      case Crash => Outcome(s, ServerError)
      case Pass((amount, rate)) =>
        var receive := AmountToReceive(orderType, amount, rate);
        match CheckText(data["full_name"], BlankFullName)
        case Refuse(e) => Outcome(s, Rejected(e))
        case Crash => Outcome(s, ServerError)
        case Pass(fullName) =>
          match CheckText(data["wallet_address"], BlankWallet)
          case Refuse(e) => Outcome(s, Rejected(e))
          case Crash => Outcome(s, ServerError)
          case Pass(wallet) =>
            match OrderUserId(data)
            case None => Outcome(s, ServerError)
            case Some(userId) =>
              var o := ExchangeOrder(
                s.NextOrderId(), userId, orderType, amount, rate, receive,
                fullName, wallet, Pending, now, now, None);
              Outcome(s.(orders := s.orders + [o]), Ok(o))
  }

  /** `create_exchange_order`. The checks run in order and the first one
      that fails decides the response: missing fields (in field order), the
      order type, the number formats of both amount and rate, the sign of
      the amount, the sign of the rate, the full name, the wallet address.
      Only an accepted request writes, and it writes exactly one pending
      order. */
  function CreateExchangeOrder(s: Store, data: Body, now: int): (r: Outcome<ExchangeOrder, OrderError>)
    ensures r.response.Ok? <==> OrderAcceptable(data)
    ensures !r.response.Ok? ==> r.store == s
    ensures FirstMissing(OrderFields, data).Some? ==>
      r.response == Rejected(OrderMissingField(OrderFields[FirstMissing(OrderFields, data).value]))
    ensures FirstMissing(OrderFields, data).None? ==>
      && (OrderTypeOf(data["order_type"]).None? ==> r.response == Rejected(BadOrderType))
      && (OrderTypeOf(data["order_type"]).Some? && CheckAmounts(data["amount"], data["exchange_rate"]).Refuse? ==>
            r.response == Rejected(CheckAmounts(data["amount"], data["exchange_rate"]).reason))
    ensures NumbersPass(data) && CheckText(data["full_name"], BlankFullName).Refuse? ==>
      r.response == Rejected(BlankFullName)
    ensures NumbersPass(data) && CheckText(data["full_name"], BlankFullName).Crash? ==>
      r.response == ServerError
    ensures NamePasses(data) && CheckText(data["wallet_address"], BlankWallet).Refuse? ==>
      r.response == Rejected(BlankWallet)
    ensures NamePasses(data) && CheckText(data["wallet_address"], BlankWallet).Crash? ==>
      r.response == ServerError
    ensures WalletPasses(data) && OrderUserId(data).None? ==> r.response == ServerError
  {
    OrderFieldsScan(data);
    match FirstMissing(OrderFields, data)
    case Some(k) => Outcome(s, Rejected(OrderMissingField(OrderFields[k])))
    case None => CheckedOrder(s, data, now)
  }

  /** An accepted request stores one new pending order, last in the table,
      holding the converted amount and rate, the received amount of the
      direction's formula, and the stripped name and wallet. */
  lemma AcceptedOrder(s: Store, data: Body, now: int)
    requires OrderAcceptable(data)
    ensures var r := CreateExchangeOrder(s, data, now);
        var o := r.response.value;
        && r.response.Ok?
        && r.store == s.(orders := s.orders + [o])
        && o.id == s.NextOrderId()
        && o.status == Pending
        && Some(o.orderType) == OrderTypeOf(data["order_type"])
        && Some(o.amount) == DecimalOf(data["amount"])
        && Some(o.exchangeRate) == DecimalOf(data["exchange_rate"])
        && o.exchangeRate > 0.0
        && o.amountToReceive == AmountToReceive(o.orderType, o.amount, o.exchangeRate)
        && o.fullName == Strip(data["full_name"].s) && o.fullName != ""
        && o.walletAddress == Strip(data["wallet_address"].s) && o.walletAddress != ""
        && Some(o.telegramUserId) == OrderUserId(data)
        && o.createdAt == now && o.updatedAt == now && o.notes.None?
  {
    var orderType := OrderTypeOf(data["order_type"]).value;
    var (amount, rate) := CheckAmounts(data["amount"], data["exchange_rate"]).value;
    var fullName := CheckText(data["full_name"], BlankFullName).value;
    var wallet := CheckText(data["wallet_address"], BlankWallet).value;
    var o := ExchangeOrder(
      s.NextOrderId(), OrderUserId(data).value, orderType, amount, rate,
      AmountToReceive(orderType, amount, rate), fullName, wallet, Pending, now, now, None);
    OrderFieldsScan(data);
    assert CheckedOrder(s, data, now) == Outcome(s.(orders := s.orders + [o]), Ok(o));
  }

  /** A purchase of 9000 at rate 90 with a name, a wallet and the given
      telegram id. */
  function ExampleOrder(id: Json): Body {
    map["order_type" := JString("buy"), "amount" := JInt(9000), "exchange_rate" := JInt(90),
        "full_name" := JString("Ivan"), "wallet_address" := JString("T1"), "telegram_user_id" := id]
  }

  lemma ExampleNumbersPass(id: Json)
    ensures HasOrderFields(ExampleOrder(id))
    ensures OrderTypeOf(ExampleOrder(id)["order_type"]) == Some(Buy)
    ensures CheckAmounts(ExampleOrder(id)["amount"], ExampleOrder(id)["exchange_rate"]) == Pass((9000.0, 90.0))
  {
    var data := ExampleOrder(id);
    assert data["order_type"] == JString("buy");
    assert data["amount"] == JInt(9000) && data["exchange_rate"] == JInt(90);
  }

  lemma ExampleTexts(id: Json)
    ensures ExampleOrder(id)["full_name"] == JString("Ivan")
    ensures ExampleOrder(id)["wallet_address"] == JString("T1")
    ensures Get(ExampleOrder(id), "telegram_user_id") == id
  {
  }

  lemma ExampleNamesNotBlank()
    ensures !Blank("Ivan") && !Blank("T1")
  {
    StripTrimmed("Ivan");
    StripTrimmed("T1");
  }

  lemma ExampleTextsPass()
    ensures CheckText(JString("Ivan"), BlankFullName).Pass?
    ensures CheckText(JString("T1"), BlankWallet).Pass?
  {
    ExampleNamesNotBlank();
  }

  lemma ExampleNamePasses(id: Json)
    ensures NamePasses(ExampleOrder(id))
  {
    ExampleNumbersPass(id);
    ExampleTexts(id);
    ExampleTextsPass();
  }

  /** The example passes every check before the insert. */
  lemma ExampleWalletPasses(id: Json)
    ensures WalletPasses(ExampleOrder(id))
  {
    ExampleNamePasses(id);
    ExampleTexts(id);
    ExampleTextsPass();
  }

  /** With telegram id 42 the example passes every intake check. */
  lemma ExampleOrderAcceptable()
    ensures OrderAcceptable(ExampleOrder(JInt(42)))
  {
    ExampleNumbersPass(JInt(42));
    ExampleTexts(JInt(42));
    ExampleNamesNotBlank();
    ExampleUserId();
  }

  lemma ExampleUserId()
    ensures OrderUserId(ExampleOrder(JInt(42))) == Some(Some(42))
  {
    ExampleTexts(JInt(42));
  }

  /** With telegram id 42 the example is stored as a pending purchase, and
      9000 at rate 90 buys 100. */
  lemma ExampleOrderAccepted(s: Store, now: int)
    ensures CreateExchangeOrder(s, ExampleOrder(JInt(42)), now).response.Ok?
    ensures CreateExchangeOrder(s, ExampleOrder(JInt(42)), now).response.value.orderType == Buy
    ensures CreateExchangeOrder(s, ExampleOrder(JInt(42)), now).response.value.amountToReceive == 100.0
  {
    ExampleOrderAcceptable();
    ExampleNumbersPass(JInt(42));
    AcceptedOrder(s, ExampleOrder(JInt(42)), now);
  }

  /** With telegram id 2^63, one past the column's range, the same order
      is answered with an internal error and nothing is stored. */
  lemma ExampleOrderOverflows(s: Store, now: int)
    ensures CreateExchangeOrder(s, ExampleOrder(JInt(0x8000_0000_0000_0000)), now) == Outcome(s, ServerError)
  {
    ExampleWalletPasses(JInt(0x8000_0000_0000_0000));
    ExampleTexts(JInt(0x8000_0000_0000_0000));
    OversizedUserIdFails(s, ExampleOrder(JInt(0x8000_0000_0000_0000)), now);
  }

  /** A telegram id wider than the 64-bit column makes the insert raise:
      an order that passes every other check is answered with an internal
      error and writes nothing. */
  lemma OversizedUserIdFails(s: Store, data: Body, now: int)
    requires WalletPasses(data)
    requires Get(data, "telegram_user_id").JInt? && !FitsBigInt(Get(data, "telegram_user_id").i)
    ensures CreateExchangeOrder(s, data, now) == Outcome(s, ServerError)
  {
  }

  /** A request whose amount or rate is not a positive number is rejected
      with the matching reason and writes nothing, whatever else it holds. */
  lemma NonPositiveRejected(s: Store, data: Body, now: int)
    requires HasOrderFields(data)
    requires OrderTypeOf(data["order_type"]).Some?
    requires DecimalOf(data["amount"]).Some? && DecimalOf(data["exchange_rate"]).Some?
    requires DecimalOf(data["amount"]).value <= 0.0 || DecimalOf(data["exchange_rate"]).value <= 0.0
    ensures CreateExchangeOrder(s, data, now).store == s
    ensures CreateExchangeOrder(s, data, now).response ==
      Rejected(if DecimalOf(data["amount"]).value <= 0.0 then AmountNotPositive else RateNotPositive)
  {
  }

  /** Creating an order keeps the store's id discipline. */
  lemma CreateExchangeOrderKeepsValid(s: Store, data: Body, now: int)
    requires s.Valid()
    ensures CreateExchangeOrder(s, data, now).store.Valid()
  {
    var r := CreateExchangeOrder(s, data, now);
    if r.response.Ok? {
      AcceptedOrder(s, data, now);
      AppendOrderKeepsIds(s.orders, r.response.value);
    }
  }

  /** The request handler with its notification step: the order is
      announced to the administrators when it was created, and whatever the
      notification does, the store and the response are those of the intake
      alone. */
  method ServeExchangeOrder(s: Store, data: Body, now: int, bot: Notifications.Notifier, ok: int -> bool)
    returns (r: Outcome<ExchangeOrder, OrderError>, notified: Notifications.NotifyOutcome)
    ensures r == CreateExchangeOrder(s, data, now)
    ensures StatusCode(r.response, true) == 201 <==> OrderAcceptable(data)
    ensures !r.response.Ok? ==> notified == Notifications.NotAttempted
    ensures r.response.Ok? && bot.tokenSet && bot.starts ==>
      Notifications.Sends(notified) == Notifications.ActiveChatIds(s.admins)
  {
    r := CreateExchangeOrder(s, data, now);
    notified := Notifications.NotAttempted;
    if r.response.Ok? {
      var notice;
      notified, notice := Notifications.NotifyOrder(r.store, r.response.value, bot, ok);
    }
  }

  // ---------------------------------------------------------------------
  // create_cityex24_transfer
  // ---------------------------------------------------------------------

  const TransferFields: seq<string> := ["country", "contact_phone"]

  datatype TransferError = TransferMissingField(field: string) | BadCountry | BlankPhone

  /** The `error` text of each rejection. */
  function TransferErrorText(e: TransferError): (t: string)
    ensures e.TransferMissingField? ==> t == MissingFieldText(e.field)
  {
    match e
    case TransferMissingField(f) => MissingFieldText(f)
    case BadCountry => "Неверная страна"
    case BlankPhone => "Телефон не может быть пустым"
  }

  /** Different rejections are told to the client in different words. */
  lemma TransferErrorTextDistinct(a: TransferError, b: TransferError)
    ensures TransferErrorText(a) == TransferErrorText(b) <==> a == b
  {
    if TransferErrorText(a) == TransferErrorText(b) {
      if a.TransferMissingField? && b.TransferMissingField? {
        MissingFieldTextNamesField(a.field, b.field);
      } else {
        assert TransferErrorText(a)[0] == TransferErrorText(b)[0];
      }
    }
  }

  /** `data.get(key, '')` for a contact name: a missing key reads as the
      empty string and `null` as `None`. */
  function NameField(data: Body, key: string): Option<Option<string>> {
    if key !in data then Some(Some(""))
    else match data[key]
      case JNull => Some(None)
      case JString(v) => Some(Some(v))
      case _ => None
  }

  /** The user a web transfer is attached to: none when the id is falsy.
      A truthy id must be an integer that fits the 64-bit column; anything
      else makes the user lookup raise. */
  function TransferUserId(data: Body): (r: Option<Option<int>>)
    ensures r == Some(None) <==> !Truthy(Get(data, "telegram_user_id"))
    ensures r.Some? && r.value.Some? ==>
      Get(data, "telegram_user_id") == JInt(r.value.value) && FitsBigInt(r.value.value)
    ensures Get(data, "telegram_user_id").JInt? && !FitsBigInt(Get(data, "telegram_user_id").i) ==> r.None?
  {
    var v := Get(data, "telegram_user_id");
    if !Truthy(v) then Some(None)
    else if v.JInt? && FitsBigInt(v.i) then Some(Some(v.i))
    else None
  }

  /** `TelegramUser.objects.get_or_create` with the contact names as
      defaults, followed by overwriting the first and last name of an
      existing user only with names that were actually supplied. */
  function WebUpsertUser(users: map<int, TelegramUser>, id: int, first: Option<string>, last: Option<string>,
                         now: int): (r: map<int, TelegramUser>)
    ensures r.Keys == users.Keys + {id}
    ensures forall k :: k in users && k != id ==> r[k] == users[k]
    ensures id !in users ==> r[id] == TelegramUser(id, None, first, last, now, now)
    ensures id in users ==>
      && r[id].firstName == (if Supplied(first) then first else users[id].firstName)
      && r[id].lastName == (if Supplied(last) then last else users[id].lastName)
      && r[id].(firstName := users[id].firstName, lastName := users[id].lastName, updatedAt := users[id].updatedAt)
         == users[id]
  {
    if id in users then
      var u := users[id];
      users[id := u.(firstName := if Supplied(first) then first else u.firstName,
                     lastName := if Supplied(last) then last else u.lastName,
                     updatedAt := now)]
    else users[id := TelegramUser(id, None, first, last, now, now)]
  }

  /** Everything the transfer intake checks holds of the request. */
  ghost predicate TransferAcceptable(data: Body) {
    && (forall f :: f in TransferFields ==> f in data)
    && data["country"].JString? && ParseCountryCode(data["country"].s).Some?
    && data["contact_phone"].JString? && !Blank(data["contact_phone"].s)
    && NameField(data, "contact_first_name").Some?
    && NameField(data, "contact_last_name").Some?
    && TransferUserId(data).Some?
  }

  /** `create_cityex24_transfer`: missing fields, then the country (one of
      the five codes), then the stripped phone; an accepted request upserts
      the user when a telegram id is given and writes one `new` transfer. */
  function CreateTransfer(s: Store, data: Body, now: int): (r: Outcome<Transfer, TransferError>)
    ensures r.response.Ok? <==> TransferAcceptable(data)
    ensures !r.response.Ok? ==> r.store == s
    ensures FirstMissing(TransferFields, data).Some? ==>
      r.response == Rejected(TransferMissingField(TransferFields[FirstMissing(TransferFields, data).value]))
    ensures (FirstMissing(TransferFields, data).None?
             && !(data["country"].JString? && ParseCountryCode(data["country"].s).Some?)) ==>
      r.response == Rejected(BadCountry)
    ensures (FirstMissing(TransferFields, data).None?
             && data["country"].JString? && ParseCountryCode(data["country"].s).Some?
             && data["contact_phone"].JString? && Blank(data["contact_phone"].s)) ==>
      r.response == Rejected(BlankPhone)
    ensures (FirstMissing(TransferFields, data).None?
             && data["country"].JString? && ParseCountryCode(data["country"].s).Some?
             && !data["contact_phone"].JString?) ==>
      r.response == ServerError
    ensures (FirstMissing(TransferFields, data).None?
             && data["country"].JString? && ParseCountryCode(data["country"].s).Some?
             && data["contact_phone"].JString? && !Blank(data["contact_phone"].s)
             && (NameField(data, "contact_first_name").None? || NameField(data, "contact_last_name").None?
                 || TransferUserId(data).None?)) ==>
      r.response == ServerError
    ensures r.response.Ok? ==>
      var t := r.response.value;
      var first := NameField(data, "contact_first_name").value;
      var last := NameField(data, "contact_last_name").value;
      && r.store.transfers == s.transfers + [t]
      && r.store.(users := s.users, transfers := s.transfers) == s
      && t.id == s.NextTransferId()
      && t.status == New
      && t.country == data["country"].s && ParseCountryCode(t.country).Some?
      && t.phone == Some(Strip(data["contact_phone"].s)) && !Blank(t.phone.value)
      && t.firstName == first && t.lastName == last
      && t.createdAt == now && t.updatedAt == now
      && t.user == TransferUserId(data).value
      && (t.user.None? ==> r.store.users == s.users)
      && (t.user.Some? ==> r.store.users == WebUpsertUser(s.users, t.user.value, first, last, now))
  {
    match FirstMissing(TransferFields, data)
    case Some(k) => Outcome(s, Rejected(TransferMissingField(TransferFields[k])))
    case None =>
      var country := data["country"];
      if !(country.JString? && ParseCountryCode(country.s).Some?) then Outcome(s, Rejected(BadCountry))
      else
        var phone := data["contact_phone"];
        if !phone.JString? then Outcome(s, ServerError)
        else if Blank(phone.s) then Outcome(s, Rejected(BlankPhone))
        else
          var first := NameField(data, "contact_first_name");
          var last := NameField(data, "contact_last_name");
          var userId := TransferUserId(data);
          if first.None? || last.None? || userId.None? then Outcome(s, ServerError)
          else
            var users := if userId.value.Some?
              then WebUpsertUser(s.users, userId.value.value, first.value, last.value, now)
              else s.users;
            var t := Transfer(s.NextTransferId(), userId.value, country.s, New, Some(Strip(phone.s)),
                              first.value, last.value, now, now, None);
            StripIdempotent(phone.s);
            Outcome(s.(users := users, transfers := s.transfers + [t]), Ok(t))
  }

  /** Creating a transfer keeps the store's key and id discipline. */
  lemma CreateTransferKeepsValid(s: Store, data: Body, now: int)
    requires s.Valid()
    ensures CreateTransfer(s, data, now).store.Valid()
  {
    var r := CreateTransfer(s, data, now);
    if r.response.Ok? {
      var t := r.response.value;
      AppendTransferKeepsIds(s.transfers, t);
      if t.user.Some? {
        WebUpsertKeepsKeyed(s.users, t.user.value, t.firstName, t.lastName, now);
      }
      assert s.users.Keys <= r.store.users.Keys;
      OwnersStillExist(s.transfers, s.users, r.store.users, t);
      assert r.store == s.(users := r.store.users, transfers := s.transfers + [t]);
    }
  }

  /** A truthy telegram id wider than the 64-bit column makes the user
      lookup raise: a transfer that passes every other check is answered
      with an internal error and writes nothing. */
  lemma OversizedTransferUserIdFails(s: Store, data: Body, now: int)
    requires FirstMissing(TransferFields, data).None?
    requires data["country"].JString? && ParseCountryCode(data["country"].s).Some?
    requires data["contact_phone"].JString? && !Blank(data["contact_phone"].s)
    requires NameField(data, "contact_first_name").Some? && NameField(data, "contact_last_name").Some?
    requires Get(data, "telegram_user_id").JInt? && !FitsBigInt(Get(data, "telegram_user_id").i)
    ensures CreateTransfer(s, data, now) == Outcome(s, ServerError)
  {
  }

  lemma WebUpsertKeepsKeyed(users: map<int, TelegramUser>, id: int, first: Option<string>, last: Option<string>, now: int)
    requires UsersKeyed(users)
    ensures UsersKeyed(WebUpsertUser(users, id, first, last, now))
  {
  }

  /** The request handler with its notification step: the transfer, read
      back from the store, is announced when it was created, and the store
      and the response are those of the intake alone. */
  method ServeTransfer(s: Store, data: Body, now: int, bot: Notifications.Notifier, ok: int -> bool)
    returns (r: Outcome<Transfer, TransferError>, notified: Notifications.NotifyOutcome)
    ensures r == CreateTransfer(s, data, now)
    ensures StatusCode(r.response, true) == 201 <==> TransferAcceptable(data)
    ensures !r.response.Ok? ==> notified == Notifications.NotAttempted
    ensures r.response.Ok? && bot.tokenSet && bot.starts ==>
      Notifications.Sends(notified) == Notifications.ActiveChatIds(s.admins)
  {
    r := CreateTransfer(s, data, now);
    notified := Notifications.NotAttempted;
    if r.response.Ok? {
      assert r.store.transfers[|s.transfers|] == r.response.value;
      notified := Notifications.NotifyTransfer(r.store, r.response.value.id, bot, ok);
    }
  }

  // ---------------------------------------------------------------------
  // get_user_orders
  // ---------------------------------------------------------------------

  datatype UserOrdersError = MissingUserId | BadUserId

  /** The `error` text of each rejection. */
  function UserOrdersErrorText(e: UserOrdersError): string {
    match e
    case MissingUserId => "telegram_user_id обязателен"
    case BadUserId => "Неверный формат telegram_user_id"
  }

  /** `ExchangeOrder.objects.filter(telegram_user_id=id)`: the orders of the
      user, each as often as it occurs in the table. */
  function OrdersOf(orders: seq<ExchangeOrder>, id: int): (r: seq<ExchangeOrder>)
    ensures forall o :: multiset(r)[o] == if o.telegramUserId == Some(id) then multiset(orders)[o] else 0
  {
    if orders == [] then []
    else
      var rest := OrdersOf(orders[1..], id);
      assert orders == [orders[0]] + orders[1..];
      if orders[0].telegramUserId == Some(id) then [orders[0]] + rest else rest
  }

  /** `get_user_orders`: the id parameter is required and must be an integer;
      the answer is exactly the orders of that user, newest first. */
  function GetUserOrders(s: Store, param: Option<string>): (r: Response<seq<ExchangeOrder>, UserOrdersError>)
    ensures !Supplied(param) ==> r == Rejected(MissingUserId)
    ensures Supplied(param) && Numerals.ParseInt(param.value).None? ==> r == Rejected(BadUserId)
    ensures Supplied(param) && Numerals.ParseInt(param.value).Some? ==>
      var id := Numerals.ParseInt(param.value).value;
      && r.Ok?
      && NewestFirst(r.value, OrderCreated)
      && forall o :: multiset(r.value)[o] == if o.telegramUserId == Some(id) then multiset(s.orders)[o] else 0
    ensures StatusCode(r, false) == (if Supplied(param) && Numerals.ParseInt(param.value).Some? then 200 else 400)
  {
    if !Supplied(param) then Rejected(MissingUserId)
    else match Numerals.ParseInt(param.value)
      case None => Rejected(BadUserId)
      case Some(id) => Ok(SortNewestFirst(OrdersOf(s.orders, id), OrderCreated))
  }

  // ---------------------------------------------------------------------
  // get_exchange_rates and get_bot_message
  // ---------------------------------------------------------------------

  /** `get_exchange_rates`: the active rates and only those, ordered by
      currency pair. */
  function GetExchangeRates(s: Store): (r: Response<seq<ExchangeRate>, ()>)
    ensures r.Ok? && forall x :: x in r.value <==> x in s.rates && x.active
    ensures r.Ok? && RatesSorted(r.value)
    ensures r.Ok? && forall x :: multiset(r.value)[x] == if x.active then multiset(s.rates)[x] else 0
    ensures StatusCode(r, false) == 200
  {
    Ok(ActiveRates(s.rates))
  }

  datatype BotMessageError = MissingMessageType | BadMessageType

  /** Python's `sep.join(parts)`. */
  function Join(parts: seq<string>, sep: string): string {
    if parts == [] then "" else if |parts| == 1 then parts[0] else parts[0] + sep + Join(parts[1..], sep)
  }

  /** Joining one more part adds the separator and that part at the end:
      the separator stands exactly between consecutive parts. */
  lemma {:induction false} JoinAppend(parts: seq<string>, x: string, sep: string)
    requires parts != []
    ensures Join(parts + [x], sep) == Join(parts, sep) + sep + x
  {
    assert (parts + [x])[0] == parts[0];
    if |parts| > 1 {
      assert (parts + [x])[1..] == parts[1..] + [x];
      JoinAppend(parts[1..], x, sep);
    }
  }

  /** The `error` text of each rejection; an unknown type is answered with
      the list of valid codes. */
  function BotMessageErrorText(e: BotMessageError): string {
    match e
    case MissingMessageType => "message_type обязателен"
    case BadMessageType =>
      "Неверный тип сообщения. Допустимые типы: "
      + Join(seq(|MessageTypes|, i requires 0 <= i < |MessageTypes| => MessageTypeCode(MessageTypes[i])), ", ")
  }

  /** The rejection of an unknown type lists the ten codes, in the order
      of the choices, joined by a comma and a space. */
  lemma BadMessageTypeListsCodes()
    ensures BotMessageErrorText(BadMessageType) ==
      "Неверный тип сообщения. Допустимые типы: "
      + Join(["start", "about", "support", "courses", "contact", "location", "aml",
              "cityex24_question", "cityex24_contact_request", "cityex24_confirmation"], ", ")
  {
    var codes := seq(|MessageTypes|, i requires 0 <= i < |MessageTypes| => MessageTypeCode(MessageTypes[i]));
    assert codes == ["start", "about", "support", "courses", "contact", "location", "aml",
                     "cityex24_question", "cityex24_contact_request", "cityex24_confirmation"];
  }

  /** The two rejections are told apart by their texts, and
      `UserOrdersErrorText` likewise. */
  lemma ErrorTextsDistinct()
    ensures BotMessageErrorText(MissingMessageType) != BotMessageErrorText(BadMessageType)
    ensures UserOrdersErrorText(MissingUserId) != UserOrdersErrorText(BadUserId)
  {
    assert |BotMessageErrorText(MissingMessageType)| < |BotMessageErrorText(BadMessageType)|;
  }

  /** `get_bot_message`: the type parameter is required and must be one of
      the message types; a type with no stored template answers the
      not-configured text as a success. */
  function GetBotMessage(s: Store, param: Option<string>): (r: Response<string, BotMessageError>)
    ensures !Supplied(param) ==> r == Rejected(MissingMessageType)
    ensures Supplied(param) && ParseMessageType(param.value).None? ==> r == Rejected(BadMessageType)
    ensures Supplied(param) && ParseMessageType(param.value).Some? ==>
      var t := ParseMessageType(param.value).value;
      && r.Ok?
      && (t in s.messages ==> r.value == s.messages[t])
      && (t !in s.messages ==> r.value == NotConfigured)
    ensures StatusCode(r, false) == (if Supplied(param) && ParseMessageType(param.value).Some? then 200 else 400)
  {
    if !Supplied(param) then Rejected(MissingMessageType)
    else match ParseMessageType(param.value)
      case None => Rejected(BadMessageType)
      case Some(t) => Ok(GetMessage(s.messages, t))
  }
}
